=== FILE: README.md ===
# Sprinkler arc geometry

A sprinkler product placed on a plan sprays water over a pie slice. The
`Water` object keeps that slice as a start angle, an end angle and a
radius, bounded by the product's minimum and maximum arc and radius. The
user reshapes the slice with three handles:

- dragging the start or end handle moves that endpoint, snapping near an
  empty or a full circle and clamping the sweep into [minArc, maxArc];
- dragging the mid handle rotates the slice around its centre, keeping the
  sweep, and rescales its radius to the pointer's distance, clamped into
  [0.75 * minRadius, maxRadius].

After every start or end move the owning `Product` runs `handleAngles`, a
second clamp that pulls the moved endpoint back to exactly maxArc from the
other one when the sweep exceeds it.

The project has three modules:

- `Angles` (angles.dfy): the wrap-around loops of `normalizeAngle`,
  `getSweepAngle` and the path's large-arc flag; `computeMidAngle`; and the
  rounding used for display.
  - Every loop is a recursive function over a period `p` (360 degrees or
    2π radians), with `Laps` as its termination measure.
  - "Same direction" means "differs by a whole number of turns".
  - π is the exact value of the double `Math.PI`. The radian computations
    agree with the degree ones because the model's arithmetic is exact; the
    agreement would hold for any positive π.
- `Water` (water.dfy): the arc state and its transitions.
  - Drag (`onControlCircleMoving`), rotation (`getRotation`), product move
    (`handleWaterMoving`) and handle placement (`setPointOnCircumference`).
  - The label flip of `handleInfo` and the large-arc flag of
    `generatePathData`.
  - `setConstraints` and the getters.
- `Product` (product.dfy): the constructor's hand-off of catalogue bounds
  to the water, and `handleAngles`.

Angles are degrees throughout. In the source, the field `sweepAngle` holds
radians from the constructor on (src/util/water.ts:82), and its readers
convert it with `radiansToDegrees`. The drag handler is the exception: it
stores a degree value at src/util/water.ts:275 and 290, compares it with the
bounds as it stands, and stores radians again at src/util/water.ts:306. The
model stores the degree reading in `sweep`.

Three invariants of the water state recur in the contracts:
- `Draggable`: both angles lie in [0, 360), and the bounds satisfy
  `LimitsValid` (0 <= minArc <= maxArc <= 360 and minArc < 360). A drag
  needs no more, since it recomputes the stored sweep.
- `DraggableBy(w, h)`: what a drag of handle `h` alone needs. The endpoint
  it leaves fixed lies in [0, 360), and the bounds satisfy `LimitsValid`.
  The old value of the moving endpoint is never read.
- `ArcValid`: `Draggable`, and the stored sweep agrees with the angles.
- `Valid`: `ArcValid`, a positive radius, and a reported radius (the
  value `getRadius` returns) equal to the drawn radius in feet, to the
  hundredth.

Trigonometry becomes inputs:
- a drag receives the `atan2` pointer angle in degrees, in [-180, 180];
- a rotation receives the pointer angle in radians and the pointer's
  distance from the centre in pixels.

## Model

| member | source | states |
|---|---|---|
| `Angles.RaiseAboveZero` | src/util/water.ts:619-621 | The add-a-turn loop ends at a non-negative angle in the same direction. A negative input ends below one turn; a non-negative one is left alone. |
| `Angles.LowerToTurn` | src/util/water.ts:475 | The loop `while (sweep > p) sweep -= p` ends at most one turn, in the same direction. A positive input stays positive; an input of at most a turn is left alone. |
| `Angles.LowerBelowTurn` | src/util/water.ts:622-624 | The subtract-a-turn loop ends below one turn, in the same direction. A non-negative input stays non-negative; an input already below a turn is left alone. |
| `Angles.Normalize` | src/util/water.ts:609-627 | `normalizeAngle` returns a value in [0, p) that differs from its input by a whole number of turns. |
| `Angles.NormalizeUnique` | src/util/water.ts:609-627 | Any value in [0, p) naming the input's direction is the result of `normalizeAngle`, so the result is fully determined by the direction. |
| `Angles.NormalizeIdempotent` | src/util/water.ts:609-627 | Normalizing a normalized angle changes nothing. |
| `Angles.NormalizeSameDirection` | src/util/water.ts:609-627 | Two angles normalize to the same value if and only if they differ by whole turns. |
| `Angles.NormalizeToRadians` | src/util/water.ts:610-617 | The radian branch lands on the degree branch's answer, converted to radians. |
| `Angles.WrapClosed` | src/util/water.ts:474-475 | The sweep loops stop in the closed [0, p], in the same direction as the input. |
| `Angles.WrapClosedCases` | src/util/water.ts:474-475 | The closed wrap is `normalizeAngle`, except that a positive whole number of turns becomes one full turn rather than 0. |
| `Angles.GetSweepAngle` | src/util/water.ts:468-477 | `getSweepAngle` takes degrees and returns radians in [0, 2π]. |
| `Angles.GetSweepAngleInDegrees` | src/util/water.ts:468-477 | `getSweepAngle`, read back through `radiansToDegrees`, is the sweep computed in degrees with period 360. |
| `Angles.SweepDegrees` | src/util/water.ts:468-477 | The sweep lies in [0, 360] and equals `e - s` up to whole turns. Equal endpoints give 0, not a full circle. |
| `Angles.SweepDegreesCases` | src/util/water.ts:468-477 | The sweep is `(e - s)` normalized into [0, 360), except that `e` a positive whole number of turns ahead of `s` gives 360. |
| `Angles.SweepOfNormalized` | src/util/water.ts:468-477 | Between two angles in [0, 360) the sweep is the normalized difference and is below a full turn. |
| `Angles.SweepBetweenDirections` | src/util/water.ts:468-477 | The sweep between two normalized angles depends only on the directions they name. |
| `Angles.ComputeMidAngleAsWritten` | src/util/water.ts:547-557 | `computeMidAngle` as written, whose sign fix-ups add the literal 360 in any unit. On non-negative angles it equals the corrected `Angles.ComputeMidAngle`. |
| `Angles.ComputeMidAngle` | src/util/water.ts:547-557 | `computeMidAngle` with its sign fix-ups adding one period. Angles down to one turn below zero give a non-negative result. For endpoints in [0, p) it lies in [start, start + p). |
| `Angles.ComputeMidAngleSignedHalfSweep` | src/util/water.ts:547-557 | For endpoints within one turn either side of zero, the corrected mid angle is the normal form of the start plus half the sweep to the normal form of the end. |
| `Angles.ComputeMidAngleHalfSweep` | src/util/water.ts:547-557 | For endpoints in [0, p), `computeMidAngle` is the start plus half the sweep, so it lies in [start, start + p). |
| `Angles.ComputeMidAngleInDegrees` | src/util/water.ts:566-570 | For every pair of angles, computing the corrected mid angle in radians and reading it in degrees gives the degree computation. |
| `Angles.RoundHalfUp` | src/util/water.ts:695 | `Math.round` lands within half a unit of its argument, rounding halves up. |
| `Angles.RoundHundredths` | src/util/water.ts:436 | `toFixed(2)` lands within 0.005 of its argument, on a whole number of hundredths. |
| `Water.NewAsWritten` | src/util/water.ts:66-82 | The constructor as written: the reported radius equals the radius in pixels, twenty times the radius in feet. |
| `Water.NewAsWrittenReportsPixels` | src/util/water.ts:71-72 | Built as written, a 100 ft arc reports a radius of 2000 and breaks the radius-report invariant. The corrected constructor reports 100. |
| `Water.New` | src/util/water.ts:37-82 | The corrected constructor keeps the given angles, bounds and fixed-arc flag and draws the given radius in feet. Angles in one turn, bounds satisfying `LimitsValid` and a positive radius give a valid state. Its reported radius is the radius in feet, rounded to the hundredth. |
| `Water.StartAngle` | src/util/water.ts:667-669 | `getStartAngle` of a state satisfying `ArcValid` lies in [0, 360). |
| `Water.EndAngle` | src/util/water.ts:676-678 | `getEndAngle` of a state satisfying `ArcValid` lies in [0, 360). |
| `Water.Radius` | src/util/water.ts:685-687 | `getRadius` of a valid state is within 0.005 ft of the drawn radius. |
| `Water.ArcAngle` | src/util/water.ts:694-696 | `getArcAngle` of a state satisfying `ArcValid` is a whole number of degrees in [0, 360]. |
| `Water.ArcAngleWithinLimits` | src/util/water.ts:694-696 | With whole-degree bounds, a sweep inside the bounds reports an arc angle inside them too. |
| `Water.SetConstraints` | src/util/water.ts:704-709 | `setConstraints` replaces the bounds. Angles, sweep, fixed-arc flag, drawn radius and reported radius are all left as they were. |
| `Water.DragAfterSetConstraints` | src/util/water.ts:704-709 | New bounds satisfying `LimitsValid` keep `ArcValid` (and `Valid`). With the dragged handle's fixed endpoint in [0, 360), whatever sweep is stored, the next drag puts the sweep within the new bounds. |
| `Water.PointerAngle` | src/util/water.ts:248-251 | The pointer angle keeps its direction, and any `atan2` output lands in [0, 360). |
| `Water.PointerAngleIsNormalize` | src/util/water.ts:251 | On the range of `atan2`, the one-step fix-up is `normalizeAngle`. |
| `Water.SnapCandidate` | src/util/water.ts:253-269 | Outside the snap zones, or with the pointer 5 to 355 degrees from the fixed endpoint, the candidate is the pointer. Otherwise it is the point whose arc to or from the fixed endpoint spans 359.99 degrees. |
| `Water.CandidateShortOfFullTurn` | src/util/water.ts:253-269 | From a fixed endpoint in [0, 360) and an `atan2` pointer, the candidate's sweep from the fixed endpoint is below a full turn. |
| `Water.ClampEnd` | src/util/water.ts:273-287 | The new end lies in [0, 360). It is start + maxArc when the sweep overshoots, and the candidate's normal form when the sweep is within bounds. |
| `Water.ClampStart` | src/util/water.ts:288-303 | The new start lies in [0, 360). It is end - maxArc when the sweep overshoots, and the candidate's normal form when the sweep is within bounds. |
| `Water.ClampEndSweep` | src/util/water.ts:273-287 | After an end clamp the sweep is within [minArc, maxArc]. It is exactly the bound crossed when one was crossed, and unchanged otherwise. |
| `Water.ClampStartSweep` | src/util/water.ts:288-303 | After a start clamp the sweep is within [minArc, maxArc]. It is exactly the bound crossed when one was crossed, and unchanged otherwise. |
| `Water.MidHandle` | src/util/water.ts:566-570 | With the corrected `computeMidAngle`, the mid handle's radian computation gives the degree computation for all angles. For endpoints within a turn either side of zero, it lies half the sweep past the start, both in normal form. |
| `Water.MidHandleAsWritten` | src/util/water.ts:566-570 | `changeMidControllerPos` as written agrees with the corrected mid handle while both angles are non-negative. |
| `Water.MidHandleAfterNegativeStart` | src/util/water.ts:547-570 | From start -30, an end drag to 160 gives the arc -30 to 160. As written, its mid handle is 32400/π + 245 degrees, which is not the direction of 65. The corrected mid handle is 425, which is. |
| `Water.HandlePlacement` | src/util/water.ts:506-532 | When the rounded sweep is strictly between the bounds, a handle is drawn where asked. Once the rounded sweep reaches maxArc, the end handle is drawn at start + maxArc and the start handle at end - maxArc, normalized. Otherwise, once it reaches minArc, the same holds with minArc. |
| `Water.Drag` | src/util/water.ts:243-321 | A drag moves only the dragged endpoint, and the dragged endpoint always ends in [0, 360). The sweep is recomputed by `getSweepAngle`; bounds, flag and radius are untouched; the reported radius matches the drawn one. |
| `Water.DragKeepsArcWithinLimits` | src/util/water.ts:273-306 | From any state whose fixed endpoint lies in [0, 360) (`DraggableBy`), whatever it holds in the moving endpoint, the stored sweep and the reported radius, a drag leaves `ArcValid` with the sweep within [minArc, maxArc]. With a positive radius the result is `Valid`. |
| `Water.FullCircleBoundsCollapse` | src/util/water.ts:273-306 | With both bounds at 360 degrees and the fixed endpoint in [0, 360), every drag puts the dragged endpoint onto the fixed one and leaves a sweep of 0. |
| `Water.DragMidHandleHalfway` | src/util/water.ts:306-314 | From a state satisfying `DraggableBy` for the dragged handle, the mid handle after a drag sits half the new sweep past the start. |
| `Water.DragDrawsHandleNearArcEnd` | src/util/water.ts:313 | From a state satisfying `DraggableBy` for the dragged handle, with whole-degree bounds, the dragged handle is drawn within half a degree of the endpoint the drag moved. |
| `Water.FirstDragRepairsReport` | src/util/water.ts:313-315 | From the constructor as written (reporting 2000), the first drag leaves a valid state within the bounds whose reported radius is 100 ft, because `handleInfo` rewrites it at src/util/water.ts:436. |
| `Water.RotationScale` | src/util/water.ts:364-374 | The drawn radius after a rotation is the pointer distance in feet, clamped into [0.75 * minRadius, maxRadius]. |
| `Water.Recentre` | src/util/water.ts:339-351 | Re-centring changes only the two angles, into [0, 360). A valid arc keeps its sweep, and its mid angle names the requested direction. |
| `Water.RecentreInDegrees` | src/util/water.ts:343-351 | An arc within one turn, re-centred on a radian direction, keeps its degree sweep and is centred on that direction. |
| `Water.RecentreKeepsSweep` | src/util/water.ts:346-351 | Placing half a sweep either side of a direction and normalizing gives an arc of that sweep centred on the direction. |
| `Water.Rescale` | src/util/water.ts:364-374 | Rescaling changes only the scale and the reported radius. The drawn radius is the clamped distance, and the report agrees with it. |
| `Water.Rotate` | src/util/water.ts:330-381 | After a rotation both angles lie in [0, 360), the sweep and bounds are kept, and the drawn radius is the clamped distance. From a state satisfying `ArcValid`, whatever radius it reports, the result is `Valid` and the mid handle names the requested direction. |
| `Water.FirstRotationRepairsReport` | src/util/water.ts:330-381 | From the constructor as written (reporting 2000), the first rotation leaves a valid 270-degree arc whose mid handle names the requested direction and whose reported radius is the clamped pointer distance in feet, to the hundredth. |
| `Water.ProductMoved` | src/util/water.ts:388-396 | A product move changes only the reported radius, which then agrees with the drawn radius. A valid state is left exactly as it was. |
| `Water.FirstProductMoveRepairsReport` | src/util/water.ts:388-396 | From the constructor as written (reporting 2000), the first product move leaves a valid state reporting 100 ft. |
| `Water.LabelAngle` | src/util/water.ts:420-425 | The label angle lies in [0, 540). |
| `Water.LabelNeverUpsideDown` | src/util/water.ts:420-425 | The label never reads upside down, and it lies along the info line in one of its two directions. |
| `Water.LargeArcFlag` | src/util/water.ts:220-230 | The flag is 0 or 1. |
| `Water.LargeArcFlagMeaning` | src/util/water.ts:220-230 | For non-negative angles, the flag is 1 exactly when the arc spans more than half a turn. This is the large-arc-flag of section 8.3.8 of SVG 1.1. |
| `Product.New` | src/util/product.ts:52-84 | A missing catalogue id yields nothing. Otherwise the product and its water get the entry's bounds and flag unchanged, and the arc starts at 0 to 270 degrees with a 100 ft radius. The water comes from the corrected constructor, so it reports 100 ft. |
| `Product.NewIsValid` | src/util/product.ts:67-82 | With bounds satisfying `LimitsValid`, a new product (built with the corrected water constructor) is valid with a 270-degree sweep. |
| `Product.HandleAngles` | src/util/product.ts:87-101 | Only the water's two angles change: its stored sweep, bounds, radius, scale, reported radius and flag are all kept. Within maxArc nothing happens. Otherwise the moved endpoint sits exactly maxArc from the fixed one. A moved start handle is redrawn by the placement rule at end - maxArc. |
| `Product.HandleAnglesRestoresMaxArc` | src/util/product.ts:90-98 | After a re-clamp the endpoints span maxArc, while the stored sweep still holds the value that triggered it. |
| `Product.HandleAnglesDoesNotNormalize` | src/util/product.ts:90-98 | Neither re-clamp normalizes. When start + maxArc reaches a full turn the new end lies outside [0, 360), e.g. 480 from start 300 with maxArc 180. When end - maxArc is negative, so does the new start. |
| `Product.HandleAnglesIgnoresMinArc` | src/util/product.ts:87-101 | Changing minArc changes nothing about `handleAngles`. |
| `Product.OnHandleMoving` | src/util/product.ts:83-84 | One handle move as the product sees it: the water's drag runs first, then `handleAngles`. The fixed endpoint and the bounds survive both. |
| `Product.FirstMoveOfProductAsBuilt` | src/util/product.ts:82-84 | For a product whose water comes from the constructor as written, the first handle move leaves `handleAngles` with nothing to do, and the product becomes valid. |
| `Product.ReclampIsNoOpAfterWaterClamp` | src/util/product.ts:90-99 | When the water satisfies `DraggableBy` for the moved handle and carries the product's bounds, whatever sweep it stores and whatever radius it reports, its own clamp already kept the sweep within maxArc. `handleAngles` then changes nothing, the water satisfies `ArcValid`, and a valid product stays valid. |
| `Product.DragRepairsReclamp` | src/util/product.ts:90-98 | A re-clamp leaves a stale stored sweep, so the water no longer satisfies `ArcValid`. The next drag of the same handle restores `ArcValid` with the sweep within the water's bounds, even when the re-clamp left the moved endpoint outside [0, 360). When the re-clamp stayed in [0, 360), the water stays `Draggable` and a drag of either handle does the same. |
| `Product.OtherHandleKeepsReclampOutOfTurn` | src/util/product.ts:90-98 | When the re-clamp left the moved endpoint outside [0, 360), a drag of the other handle keeps that endpoint where it is, so the arc stays inconsistent. |
| `Product.NegativeStartMisplacesMidHandle` | src/util/product.ts:95-98 | A water allowing 270 degrees under a product allowing 180, with the arc 0 to 150, reaches start -30 by a start drag to 200 and the re-clamp. The next end drag to 160 makes the as-written mid handle miss the direction of 65, while the corrected one names it. |

## Left out

- Fabric rendering and object plumbing is not modelled, because it is UI side effect:
  - construction of paths, circles, lines and text;
  - canvas insertion and rendering, `setCoords`, `showControls`, `updateBoundingBox`;
  - event binding. The order of the two `moving` handlers appears only as the composition in `Product.OnHandleMoving`.
- Trigonometry is not modelled. `atan2`, `cos`, `sin` and `sqrt` in `calculateAngle`, `getPointOnCircumference` and `findDistancefromPoint`, and the x/y placement of handles, are replaced by inputs: the pointer angle and the pointer distance. Handles are modelled by the angle they are drawn at.
- The SVG path string and the `toFixed` label text are not modelled; only the large-arc-flag decision is kept.
- Floating point is not modelled. All arithmetic is on exact reals, and the 0.01 snap offset is an exact constant.
- The constructor's mid-angle setup (src/util/water.ts:116-118) is not modelled. It mixes units, and the first drag, rotation or product move overwrites it.
- The `midAngle` field is not modelled. It is written at src/util/water.ts:81, 117 and 570 and never read, so the model returns the mid handle's angle instead.
- The product catalogue file and the `console.log` calls are not modelled. The catalogue is a map parameter.
- `src/util/controller.ts` is not modelled: it is a `Circle` subclass without logic.
- Nozzle matching and forbidden-band hysteresis have no code in the modelled files, so they are not modelled.
- The drawing half of `handleWaterMoving` and the rest of `handleInfo` are not modelled, because they only reposition handles, the path and the label. `Water.ProductMoved` keeps what a product move does to the state: `handleInfo` rewrites the reported radius (src/util/water.ts:436). Of `handleInfo`, the model also keeps the label flip.
- Water.Radius: the reported radius is the info line's length, from the product's centre to the mid handle. The model takes that length to be the drawn radius, which assumes the product and water share a centre and the mid handle sits on the arc.
- Water.Rotate: requires a positive unscaled radius. The source divides by it, and every water arc is built with one.
- Water.Rescale: requires a positive unscaled radius, for the same reason as `Water.Rotate`.
- Water.RotationScale: requires a positive unscaled radius, for the same reason as `Water.Rotate`.
- Water.DragKeepsArcWithinLimits: assumes the pointer angle lies in [-180, 180], the range of `atan2`. Its sibling drag lemmas assume the same.
- Water.DragKeepsArcWithinLimits: requires minArc < 360 through `LimitsValid`. A full-circle product (minArc = maxArc = 360) is excluded because the source's clamp cannot keep it: the candidate's sweep is always below 360, so the end is set to `normalizeAngle(start + 360)`, which is the start (src/util/water.ts:281-282), and the sweep becomes 0. `Water.FullCircleBoundsCollapse` proves this.
- Water.ArcAngleWithinLimits: proved only for whole-degree bounds. With fractional bounds the rounded arc angle can fall half a degree outside them.
- Water.DragDrawsHandleNearArcEnd: proved only for whole-degree bounds, for the same reason.
- Water.MidHandle: models the corrected `computeMidAngle`, whose fix-ups add one period (see Findings). Drag and rotation use it. It agrees with the code as written while both angles are non-negative. A start re-clamp below zero (src/util/product.ts:97) breaks that, and the code as written then misplaces the mid handle on the next end drag or product move.
- Water.MidHandle: the half-sweep reading is stated for endpoints within one turn either side of zero. A re-clamp can leave an end of up to 720, where `computeMidAngle` need not give the half-sweep point.
- Product.DragRepairsReclamp: does not cover a drag of the other handle after a re-clamp that left one turn. `Product.OtherHandleKeepsReclampOutOfTurn` shows that such a drag leaves the out-of-turn endpoint where it is, so `ArcValid` does not hold again until the same handle is dragged.
- Product.New: returns nothing for an unknown id, where the source fails on the missing catalogue entry.
- Product.New: builds the water with the corrected constructor `Water.New`, so the new product reports 100 ft. The source's product reports 2000 until its first handle move, rotation or product move (see Findings). `Product.FirstMoveOfProductAsBuilt` covers the product as written.
- Product.NewIsValid: holds for the corrected constructor only. Built as written, the product's water satisfies `ArcValid` but not `Valid` until its first handle move, rotation or product move.
- Water.Rotate: the mid handle is stated to name the requested direction only up to whole turns, as `changeMidControllerPos` recomputes it when the radius is clamped.
- Note on three behaviours of the code that the model keeps:
  - The sweep of equal endpoints is 0.
  - A sweep can be any value in [0, 360].
  - A rotation clamps the radius from below at 0.75 * minRadius.

## Findings

| source | as written | input that shows it | evidently intended | confidence | as-written member | corrected member |
|---|---|---|---|---|---|---|
| src/util/water.ts:548-549 | `computeMidAngle` moves a negative angle up by the literal 360. Its only caller, `changeMidControllerPos`, passes radians, so the angle moves by 360 radians instead of one turn. | A start re-clamp below zero (src/util/product.ts:97) leaves start -30. After an end drag to 160, the mid handle is drawn at 32400/π + 245 degrees, about 118 degrees modulo a turn. | Add one turn in the unit used (2π radians), so that the mid handle sits at 65 degrees, half the 190-degree sweep past the start. | not executed | `Product.NegativeStartMisplacesMidHandle` | `Water.MidHandle` |
| src/util/water.ts:72 | The constructor sets `distance` to the radius in pixels. `getRadius` returns `distance`. | A product's water, built with radius 100 ft, reports `getRadius() == 2000` until the first handle drag, rotation or product move. A product move reaches `handleInfo` through src/util/water.ts:192-195 and 392. | `distance` in feet, rounded to hundredths as `handleInfo` sets it at src/util/water.ts:436, so `getRadius() == 100`. | not executed | `Water.NewAsWrittenReportsPixels` | `Water.New` |

=== FILE: angles.dfy ===
/** Angle arithmetic of the water arc: the wrap-around loops of
    `normalizeAngle`, `getSweepAngle` and `generatePathData`, the mid angle of
    `computeMidAngle`, and the rounding the arc uses for display.

    Every wrap is stated over a period `p > 0`: 360 for degrees and 2π for
    radians, where π is `Math.PI`, the double nearest to π, taken exactly.
 */
module Angles {

  /** A full turn in degrees. */
  const FullTurn: real := 360.0

  /** `Math.PI`: the exact value of the double nearest to π. */
  const MathPi: real := 3.141592653589793115997963468544185161590576171875

  /** `util.degreesToRadians`. */
  function ToRadians(d: real): (r: real)
  {
    d * (MathPi / 180.0)
  }

  /** `util.radiansToDegrees`. */
  function ToDegrees(x: real): (r: real)
  {
    x * (180.0 / MathPi)
  }

  /** `k` whole turns of period `p`. */
  function Turns(k: int, p: real): (r: real)
  {
    k as real * p
  }

  /** `a` and `b` name the same direction on a circle of period `p`: they
      differ by a whole number of turns. */
  ghost predicate SameDirection(a: real, b: real, p: real)
  {
    exists k: int :: b - a == Turns(k, p)
  }

  /** How many whole periods fit below `x`; the termination measure of the loops. */
  function Laps(x: real, p: real): (n: int)
    requires p > 0.0
  {
    (x / p).Floor
  }

  /** The loop `while (x < 0) x += p`. */
  function RaiseAboveZero(x: real, p: real): (r: real)
    requires p > 0.0
    ensures 0.0 <= r
    ensures x < 0.0 ==> r < p
    ensures 0.0 <= x ==> r == x
    ensures SameDirection(x, r, p)
    decreases if x < 0.0 then Laps(-x, p) + 1 else 0
  {
    if x < 0.0 then
      LapsStepUp(x, p);
      var r := RaiseAboveZero(x + p, p);
      SameDirectionStep(x, r, p);
      r
    else
      SameDirectionRefl(x, p);
      x
  }

  /** The loop `while (x >= p) x -= p`. */
  function LowerBelowTurn(x: real, p: real): (r: real)
    requires p > 0.0
    ensures r < p
    ensures 0.0 <= x ==> 0.0 <= r
    ensures x < p ==> r == x
    ensures SameDirection(x, r, p)
    decreases if x >= p then Laps(x, p) else 0
  {
    if x >= p then
      LapsStepDown(x, p);
      var r := LowerBelowTurn(x - p, p);
      SameDirectionBackStep(x, r, p);
      r
    else
      SameDirectionRefl(x, p);
      x
  }

  /** The loop `while (x > p) x -= p`: unlike `LowerBelowTurn` it stops at `p`. */
  function LowerToTurn(x: real, p: real): (r: real)
    requires p > 0.0
    ensures r <= p
    ensures 0.0 < x ==> 0.0 < r
    ensures x <= p ==> r == x
    ensures SameDirection(x, r, p)
    decreases if x > p then Laps(x, p) else 0
  {
    if x > p then
      LapsStepDown(x, p);
      var r := LowerToTurn(x - p, p);
      SameDirectionBackStep(x, r, p);
      r
    else
      SameDirectionRefl(x, p);
      x
  }

  /** `normalizeAngle`: a turn added or taken away at a time until the angle
      lies in [0, p); p is 360 in the degree branch and 2π in the radian one. */
  function Normalize(x: real, p: real): (r: real)
    requires p > 0.0
    ensures 0.0 <= r < p
    ensures SameDirection(x, r, p)
  {
    var y := RaiseAboveZero(x, p);
    var r := LowerBelowTurn(y, p);
    SameDirectionTrans(x, y, r, p);
    r
  }

  /** The wrap of `getSweepAngle` and `generatePathData`: it only subtracts
      while the value exceeds `p`, so the result lies in the closed [0, p]. */
  function WrapClosed(x: real, p: real): (r: real)
    requires p > 0.0
    ensures 0.0 <= r <= p
    ensures SameDirection(x, r, p)
  {
    var y := RaiseAboveZero(x, p);
    var r := LowerToTurn(y, p);
    SameDirectionTrans(x, y, r, p);
    r
  }

  /** Sweep of the arc from `s` to `e` in degrees: what `getSweepAngle`
      returns, read back through `radiansToDegrees`. */
  function SweepDegrees(s: real, e: real): (r: real)
    ensures 0.0 <= r <= FullTurn
    ensures SameDirection(e - s, r, FullTurn)
    ensures s == e ==> r == 0.0
  {
    WrapClosed(e - s, FullTurn)
  }

  /** `getSweepAngle` as written: the arguments are degrees (they are
      multiplied by π/180) and the result is radians in [0, 2π]. */
  function GetSweepAngle(s: real, e: real): (r: real)
    ensures 0.0 <= r <= 2.0 * MathPi
  {
    WrapClosed(ToRadians(e) - ToRadians(s), 2.0 * MathPi)
  }

  /** `computeMidAngle` as written, over period `p`: the sign fix-ups add the
      literal 360 whatever the unit. Its only caller passes radians, so a
      negative angle is moved by 360 radians rather than by one turn. On
      non-negative angles, where no fix-up fires, it is `ComputeMidAngle`. */
  function ComputeMidAngleAsWritten(s: real, e: real, p: real): (r: real)
    ensures 0.0 <= s && 0.0 <= e && 0.0 <= p ==> r == ComputeMidAngle(s, e, p)
  {
    SignFix(MidOf(SignFix(s, 360.0), SignFix(e, 360.0), p), 360.0)
  }

  /** The sign fix-up of `computeMidAngle`: a negative angle is moved up by `q`. */
  function SignFix(x: real, q: real): (r: real)
    ensures 0.0 <= x ==> r == x
    ensures x < 0.0 ==> r == x + q
  {
    if x >= 0.0 then x else q + x
  }

  /** The midpoint step of `computeMidAngle`: when the end lies behind the
      start it counts one period `p` further on. */
  function MidOf(s: real, e: real, p: real): (r: real)
    ensures e < s ==> r == s + (e + p - s) / 2.0
    ensures s <= e ==> r == s + (e - s) / 2.0
  {
    if e < s then (s + e + p) / 2.0 else (s + e) / 2.0
  }

  /** `computeMidAngle` with its sign fix-ups adding one period `p`, as they
      evidently should; the rest of the model uses this one. Angles down to
      one turn below zero give a non-negative result. */
  function ComputeMidAngle(s: real, e: real, p: real): (r: real)
    ensures -p <= s && -p <= e && 0.0 <= p ==> 0.0 <= r
    ensures 0.0 <= s < p && 0.0 <= e < p ==> s <= r < s + p
  {
    SignFix(MidOf(SignFix(s, p), SignFix(e, p), p), p)
  }

  /** `Math.round`: the nearest integer, halves rounded up. */
  function RoundHalfUp(x: real): (r: int)
    ensures x - 0.5 < r as real <= x + 0.5
  {
    (x + 0.5).Floor
  }

  /** `parseFloat(x.toFixed(2))` for a non-negative `x`: the nearest hundredth,
      halves rounded up. */
  function RoundHundredths(x: real): (r: real)
    ensures x - 0.005 < r <= x + 0.005
    ensures r == Turns(RoundHalfUp(100.0 * x), 0.01)
  {
    RoundHalfUp(100.0 * x) as real / 100.0
  }

  /** Shortest angular distance between two directions, in [0, 180]. */
  function AngularDistance(a: real, b: real): (r: real)
    ensures 0.0 <= r <= 180.0
  {
    var d := Normalize(b - a, FullTurn);
    if d <= 180.0 then d else FullTurn - d
  }

  // ---------------------------------------------------------------------
  // normalizeAngle

  /** `Normalize` is the one direction in [0, p) that names the same direction
      as its input: any such value is the result. */
  lemma NormalizeUnique(x: real, a: real, p: real)
    requires p > 0.0
    requires 0.0 <= a < p && SameDirection(x, a, p)
    ensures Normalize(x, p) == a
  {
    var r := Normalize(x, p);
    SameDirectionSym(x, r, p);
    SameDirectionTrans(r, x, a, p);
    SameDirectionInTurn(r, a, p);
  }

  /** Normalizing twice is normalizing once. */
  lemma NormalizeIdempotent(x: real, p: real)
    requires p > 0.0
    ensures Normalize(Normalize(x, p), p) == Normalize(x, p)
  {
    var r := Normalize(x, p);
    SameDirectionRefl(r, p);
    NormalizeUnique(r, r, p);
  }

  /** Two angles normalize alike exactly when they name the same direction. */
  lemma NormalizeSameDirection(x: real, y: real, p: real)
    requires p > 0.0
    ensures SameDirection(x, y, p) <==> Normalize(x, p) == Normalize(y, p)
  {
    var rx, ry := Normalize(x, p), Normalize(y, p);
    if SameDirection(x, y, p) {
      SameDirectionSym(x, y, p);
      SameDirectionTrans(y, x, rx, p);
      NormalizeUnique(y, rx, p);
    }
    if rx == ry {
      SameDirectionSym(y, ry, p);
      SameDirectionTrans(x, rx, y, p);
    }
  }

  // ---------------------------------------------------------------------
  // The closed wrap of getSweepAngle

  /** The closed wrap agrees with `Normalize` except on a positive whole number
      of turns, which it maps to a full turn instead of zero. */
  lemma WrapClosedCases(x: real, p: real)
    requires p > 0.0
    ensures WrapClosed(x, p) == (if 0.0 < x && SameDirection(0.0, x, p) then p else Normalize(x, p))
  {
    var r := WrapClosed(x, p);
    if 0.0 < x && SameDirection(0.0, x, p) {
      assert 0.0 < r;
      SameDirectionTrans(0.0, x, r, p);
      var k :| r - 0.0 == Turns(k, p);
      TurnsAwayFromZero(k, p);
      TurnsAwayFromZero(k - 1, p);
      assert Turns(k - 1, p) == r - p;
    } else if r == p {
      assert x >= 0.0;
      assert SameDirection(0.0, p, p) by { assert p - 0.0 == Turns(1, p); }
      SameDirectionSym(x, r, p);
      SameDirectionTrans(0.0, r, x, p);
      assert false;
    } else {
      NormalizeUnique(x, r, p);
    }
  }

  /** Being the same direction does not depend on the unit. */
  lemma SameDirectionToRadians(a: real, b: real)
    ensures SameDirection(a, b, FullTurn) <==> SameDirection(ToRadians(a), ToRadians(b), 2.0 * MathPi)
  {
    if SameDirection(a, b, FullTurn) {
      var k :| b - a == Turns(k, FullTurn);
      assert ToRadians(b) - ToRadians(a) == Turns(k, 2.0 * MathPi);
    }
    if SameDirection(ToRadians(a), ToRadians(b), 2.0 * MathPi) {
      var k :| ToRadians(b) - ToRadians(a) == Turns(k, 2.0 * MathPi);
      assert b - a == Turns(k, FullTurn);
    }
  }

  /** In radians `Normalize` lands on the same direction as in degrees. */
  lemma NormalizeToRadians(x: real)
    ensures Normalize(ToRadians(x), 2.0 * MathPi) == ToRadians(Normalize(x, FullTurn))
  {
    var n := Normalize(x, FullTurn);
    SameDirectionToRadians(x, n);
    NormalizeUnique(ToRadians(x), ToRadians(n), 2.0 * MathPi);
  }

  /** In radians the closed wrap stops where it stops in degrees. */
  lemma WrapClosedToRadians(x: real)
    ensures WrapClosed(ToRadians(x), 2.0 * MathPi) == ToRadians(WrapClosed(x, FullTurn))
  {
    WrapClosedCases(x, FullTurn);
    WrapClosedCases(ToRadians(x), 2.0 * MathPi);
    SameDirectionToRadians(0.0, x);
    NormalizeToRadians(x);
  }

  /** `getSweepAngle` returns radians: read back through `radiansToDegrees`
      it is the sweep in degrees. */
  lemma GetSweepAngleInDegrees(s: real, e: real)
    ensures ToDegrees(GetSweepAngle(s, e)) == SweepDegrees(s, e)
  {
    assert ToRadians(e) - ToRadians(s) == ToRadians(e - s);
    WrapClosedToRadians(e - s);
  }

  /** The sweep in degrees is `e - s` taken modulo a full turn, except that a
      positive whole number of turns gives a full turn; equal ends give 0. */
  lemma SweepDegreesCases(s: real, e: real)
    ensures SweepDegrees(s, e) ==
      (if s < e && SameDirection(s, e, FullTurn) then FullTurn else Normalize(e - s, FullTurn))
  {
    WrapClosedCases(e - s, FullTurn);
    if SameDirection(s, e, FullTurn) {
      var k :| e - s == Turns(k, FullTurn);
      assert (e - s) - 0.0 == Turns(k, FullTurn);
    }
    if SameDirection(0.0, e - s, FullTurn) {
      var k :| (e - s) - 0.0 == Turns(k, FullTurn);
      assert e - s == Turns(k, FullTurn);
    }
  }

  /** Between two normalized angles the sweep is the normalized difference,
      and it is never a full turn. */
  lemma SweepOfNormalized(s: real, e: real)
    requires 0.0 <= s < FullTurn && 0.0 <= e < FullTurn
    ensures SweepDegrees(s, e) == Normalize(e - s, FullTurn) < FullTurn
  {
    SweepDegreesCases(s, e);
    if s < e && SameDirection(s, e, FullTurn) {
      SameDirectionInTurn(s, e, FullTurn);
    }
  }

  /** The sweep between the normalized forms of two angles depends only on
      the directions they name. */
  lemma SweepBetweenDirections(x: real, y: real)
    ensures SweepDegrees(Normalize(x, FullTurn), Normalize(y, FullTurn)) == Normalize(y - x, FullTurn)
  {
    var nx, ny := Normalize(x, FullTurn), Normalize(y, FullTurn);
    SweepOfNormalized(nx, ny);
    var k :| nx - x == Turns(k, FullTurn);
    var l :| ny - y == Turns(l, FullTurn);
    assert (ny - nx) - (y - x) == Turns(l - k, FullTurn);
    NormalizeSameDirection(y - x, ny - nx, FullTurn);
  }

  // ---------------------------------------------------------------------
  // computeMidAngle

  /** For two angles in one turn, `computeMidAngle` is the start plus half the
      positive sweep, so it lies in [start, start + p). */
  lemma ComputeMidAngleHalfSweep(s: real, e: real, p: real)
    requires p > 0.0
    requires 0.0 <= s < p && 0.0 <= e < p
    ensures ComputeMidAngle(s, e, p) == s + WrapClosed(e - s, p) / 2.0
    ensures s <= ComputeMidAngle(s, e, p) < s + p
  {
    if e < s {
      assert RaiseAboveZero(e - s, p) == e - s + p;
    }
  }

  /** Within one turn either side of zero, the mid angle is half the sweep
      past the start, both endpoints taken in their normal forms: a negative
      endpoint counts as the direction it names. */
  lemma ComputeMidAngleSignedHalfSweep(s: real, e: real, p: real)
    requires p > 0.0
    requires -p <= s < p && -p <= e < p
    ensures var (ns, ne) := (Normalize(s, p), Normalize(e, p));
      ComputeMidAngle(s, e, p) == ns + WrapClosed(ne - ns, p) / 2.0
  {
    var s', e' := SignFix(s, p), SignFix(e, p);
    assert s' - s == Turns(if s >= 0.0 then 0 else 1, p);
    assert e' - e == Turns(if e >= 0.0 then 0 else 1, p);
    NormalizeUnique(s, s', p);
    NormalizeUnique(e, e', p);
    ComputeMidAngleHalfSweep(s', e', p);
    assert ComputeMidAngle(s, e, p) == ComputeMidAngle(s', e', p);
  }

  /** `changeMidControllerPos` calls `computeMidAngle` in radians and reads the
      result back in degrees; with the fix-ups adding one period, that is the
      degree computation for every pair of angles. */
  lemma ComputeMidAngleInDegrees(s: real, e: real)
    ensures ToDegrees(ComputeMidAngle(ToRadians(s), ToRadians(e), 2.0 * MathPi))
         == ComputeMidAngle(s, e, FullTurn)
  {
    var s', e' := SignFix(s, FullTurn), SignFix(e, FullTurn);
    SignFixInRadians(s);
    SignFixInRadians(e);
    MidOfInRadians(s', e');
    SignFixInRadians(MidOf(s', e', FullTurn));
    DegreesOfRadians(ComputeMidAngle(s, e, FullTurn));
  }

  /** The sign fix-up commutes with the conversion to radians. */
  lemma SignFixInRadians(x: real)
    ensures SignFix(ToRadians(x), 2.0 * MathPi) == ToRadians(SignFix(x, FullTurn))
  {
  }

  /** The midpoint step commutes with the conversion to radians. */
  lemma MidOfInRadians(s: real, e: real)
    ensures MidOf(ToRadians(s), ToRadians(e), 2.0 * MathPi) == ToRadians(MidOf(s, e, FullTurn))
  {
  }

  lemma DegreesOfRadians(x: real)
    ensures ToDegrees(ToRadians(x)) == x
  {
  }

  // ---------------------------------------------------------------------
  // Division and whole turns

  lemma DivideExact(z: real, y: real, p: real)
    requires p > 0.0 && y * p == z
    ensures z / p == y
  {
  }

  /** One turn added removes one lap below zero. */
  lemma LapsStepUp(x: real, p: real)
    requires p > 0.0
    ensures Laps(-(x + p), p) == Laps(-x, p) - 1
  {
    var q := -x / p;
    DivideExact(-x, q, p);
    assert (q - 1.0) * p == -(x + p);
    DivideExact(-(x + p), q - 1.0, p);
  }

  /** One turn taken away removes one lap. */
  lemma LapsStepDown(x: real, p: real)
    requires p > 0.0
    ensures Laps(x - p, p) == Laps(x, p) - 1
  {
    var q := x / p;
    DivideExact(x, q, p);
    assert (q - 1.0) * p == x - p;
    DivideExact(x - p, q - 1.0, p);
  }

  lemma SameDirectionRefl(a: real, p: real)
    ensures SameDirection(a, a, p)
  {
    assert a - a == Turns(0, p);
  }

  /** `x` and `x + p` name the same direction. */
  lemma SameDirectionStep(x: real, r: real, p: real)
    requires SameDirection(x + p, r, p)
    ensures SameDirection(x, r, p)
  {
    var k :| r - (x + p) == Turns(k, p);
    assert r - x == Turns(k + 1, p);
  }

  /** `x` and `x - p` name the same direction. */
  lemma SameDirectionBackStep(x: real, r: real, p: real)
    requires SameDirection(x - p, r, p)
    ensures SameDirection(x, r, p)
  {
    var k :| r - (x - p) == Turns(k, p);
    assert r - x == Turns(k - 1, p);
  }

  lemma SameDirectionSym(a: real, b: real, p: real)
    requires SameDirection(a, b, p)
    ensures SameDirection(b, a, p)
  {
    var k :| b - a == Turns(k, p);
    assert a - b == Turns(-k, p);
  }

  lemma SameDirectionTrans(a: real, b: real, c: real, p: real)
    requires SameDirection(a, b, p) && SameDirection(b, c, p)
    ensures SameDirection(a, c, p)
  {
    var k :| b - a == Turns(k, p);
    var l :| c - b == Turns(l, p);
    assert c - a == Turns(k + l, p);
  }

  /** Two directions in the same turn [0, p) that are the same direction are equal. */
  lemma SameDirectionInTurn(a: real, b: real, p: real)
    requires p > 0.0
    requires 0.0 <= a < p && 0.0 <= b < p
    requires SameDirection(a, b, p)
    ensures a == b
  {
    var k :| b - a == Turns(k, p);
    TurnsAwayFromZero(k, p);
  }

  /** A non-zero number of turns is at least one turn long. */
  lemma TurnsAwayFromZero(k: int, p: real)
    requires p > 0.0
    ensures k >= 1 ==> Turns(k, p) >= p
    ensures k <= -1 ==> Turns(k, p) <= -p
  {
    assert Turns(k, p) - p == (k - 1) as real * p;
    assert Turns(k, p) + p == (k + 1) as real * p;
  }
}

=== FILE: product.dfy ===
/** A sprinkler product: its catalogue bounds, the water arc it creates with
    them, and `handleAngles`, the second max-arc clamp that runs on every
    start- or end-handle move after the water's own handler.
 */
module Product {
  import opened Angles
  import opened Water

  datatype Option<T> = None | Some(value: T)

  /** One entry of the product catalogue; the catalogue file itself is not
      part of this model. */
  datatype CatalogEntry = CatalogEntry(
    name: string,
    fixedArc: bool,
    minArc: real,
    maxArc: real,
    minRadius: real,
    maxRadius: real)

  datatype ProductState = ProductState(
    productId: string,
    name: string,
    minRadius: real,
    maxRadius: real,
    minArc: real,
    maxArc: real,
    fixedArc: bool,
    water: WaterState)

  /** The outcome of `handleAngles`: the product and, when the start handle
      was re-clamped, the angle it is redrawn at. */
  datatype Reclamped = Reclamped(product: ProductState, startHandle: Option<real>)

  /** The arc a new product starts with: 0 to 270 degrees, 100 ft. */
  const InitialStart: real := 0.0
  const InitialEnd: real := 270.0
  const InitialRadius: real := 100.0

  /** The product's own bounds, in the form the water keeps them. */
  function ProductLimits(p: ProductState): (l: Limits)
  {
    Limits(p.minArc, p.maxArc, p.minRadius, p.maxRadius)
  }

  /** A product whose water is valid and carries the product's own bounds. */
  predicate ProductValid(p: ProductState)
  {
    Valid(p.water) && p.water.limits == ProductLimits(p) && p.water.fixedArc == p.fixedArc
  }

  /** The constructor: the catalogue entry's bounds are copied to the product
      and handed to a new water arc unchanged. An unknown id yields nothing. */
  function New(catalog: map<string, CatalogEntry>, id: string): (r: Option<ProductState>)
    ensures r.None? <==> id !in catalog
    ensures r.Some? ==>
      var e := catalog[id];
      && r.value.productId == id && r.value.name == e.name
      && ProductLimits(r.value) == Limits(e.minArc, e.maxArc, e.minRadius, e.maxRadius)
      && r.value.fixedArc == e.fixedArc
      && r.value.water.limits == ProductLimits(r.value)
      && r.value.water.fixedArc == e.fixedArc
      && r.value.water.startAngle == InitialStart && r.value.water.endAngle == InitialEnd
      && EffectiveRadius(r.value.water) == InitialRadius
      && Radius(r.value.water) == InitialRadius
  {
    if id !in catalog then None
    else
      var e := catalog[id];
      var limits := Limits(e.minArc, e.maxArc, e.minRadius, e.maxRadius);
      Some(ProductState(id, e.name, e.minRadius, e.maxRadius, e.minArc, e.maxArc, e.fixedArc,
                        Water.New(InitialStart, InitialEnd, InitialRadius, limits, e.fixedArc)))
  }

  /** A product built from an entry with bounds the clamp can honour is valid,
      and its arc starts at 270 degrees. */
  lemma NewIsValid(catalog: map<string, CatalogEntry>, id: string)
    requires id in catalog
    requires var e := catalog[id]; LimitsValid(Limits(e.minArc, e.maxArc, e.minRadius, e.maxRadius))
    ensures New(catalog, id).Some? && ProductValid(New(catalog, id).value)
    ensures New(catalog, id).value.water.sweep == 270.0
  {
    var e := catalog[id];
    var w := New(catalog, id).value.water;
    assert RaiseAboveZero(InitialEnd - InitialStart, FullTurn) == 270.0;
  }

  /** `handleAngles`: when the water's sweep exceeds the product's maxArc,
      the moved endpoint is put back exactly maxArc from the other one, with
      no normalization and without recomputing the stored sweep. minArc is
      not consulted. */
  function HandleAngles(p: ProductState, h: Handle): (r: Reclamped)
    ensures r.product == p.(water := r.product.water)
    ensures r.product.water == p.water.(startAngle := r.product.water.startAngle, endAngle := r.product.water.endAngle)
    ensures p.water.sweep <= p.maxArc ==> r == Reclamped(p, None)
    ensures h == EndHandle && p.water.sweep > p.maxArc ==>
      r.product.water.startAngle == p.water.startAngle &&
      r.product.water.endAngle - r.product.water.startAngle == p.maxArc &&
      r.startHandle == None
    ensures h == StartHandle && p.water.sweep > p.maxArc ==>
      r.product.water.endAngle == p.water.endAngle &&
      r.product.water.endAngle - r.product.water.startAngle == p.maxArc &&
      r.startHandle == Some(HandlePlacement(r.product.water, StartHandle, p.water.endAngle - p.maxArc))
  {
    var w := p.water;
    if h == EndHandle && w.sweep > p.maxArc then
      Reclamped(p.(water := w.(endAngle := w.startAngle + p.maxArc)), None)
    else if h == StartHandle && w.sweep > p.maxArc then
      var w' := w.(startAngle := w.endAngle - p.maxArc);
      Reclamped(p.(water := w'), Some(HandlePlacement(w', StartHandle, w'.startAngle)))
    else
      Reclamped(p, None)
  }

  /** After a re-clamp the arc between the endpoints spans maxArc, although
      the stored sweep still holds the value that triggered it. */
  lemma HandleAnglesRestoresMaxArc(p: ProductState, h: Handle)
    requires 0.0 <= p.maxArc <= FullTurn
    requires p.water.sweep > p.maxArc
    ensures var v := HandleAngles(p, h).product.water;
      SweepDegrees(v.startAngle, v.endAngle) == p.maxArc && v.sweep > p.maxArc
  {
    var v := HandleAngles(p, h).product.water;
    assert v.endAngle - v.startAngle == p.maxArc;
    assert RaiseAboveZero(p.maxArc, FullTurn) == p.maxArc;
  }

  /** Whether a re-clamp of handle `h` leaves the moved endpoint in one turn. */
  predicate ReclampStaysInTurn(p: ProductState, h: Handle)
  {
    match h
    case EndHandle => p.water.startAngle + p.maxArc < FullTurn
    case StartHandle => 0.0 <= p.water.endAngle - p.maxArc
  }

  /** A re-clamp leaves the water inconsistent, since its stored sweep is
      stale, and possibly with the moved endpoint outside one turn. The next
      drag of the same handle recomputes both and keeps the sweep within the
      water's bounds; so does a drag of the other handle when the re-clamp
      stayed in one turn. */
  lemma DragRepairsReclamp(p: ProductState, h: Handle, next: Handle, raw: real)
    requires Draggable(p.water) && 0.0 <= p.maxArc <= FullTurn && p.water.sweep > p.maxArc
    requires next != h ==> ReclampStaysInTurn(p, h)
    requires -180.0 <= raw <= 180.0
    ensures var v := HandleAngles(p, h).product.water;
      && !ArcValid(v) && DraggableBy(v, next)
      && ArcValid(Drag(v, next, raw).water)
      && v.limits.minArc <= Drag(v, next, raw).water.sweep <= v.limits.maxArc
    ensures ReclampStaysInTurn(p, h) ==> Draggable(HandleAngles(p, h).product.water)
  {
    var v := HandleAngles(p, h).product.water;
    HandleAnglesRestoresMaxArc(p, h);
    DragKeepsArcWithinLimits(v, next, raw);
  }

  /** A re-clamp that leaves one turn is not repaired by dragging the other
      handle: that drag keeps the out-of-turn endpoint where it is, so the
      arc stays inconsistent until the same handle is dragged again. */
  lemma OtherHandleKeepsReclampOutOfTurn(p: ProductState, h: Handle, raw: real)
    requires p.water.sweep > p.maxArc
    requires !ReclampStaysInTurn(p, h)
    ensures var v := HandleAngles(p, h).product.water;
      var other := if h == EndHandle then StartHandle else EndHandle;
      && FixedEnd(Drag(v, other, raw).water, other) == FixedEnd(v, other)
      && !InTurn(FixedEnd(v, other))
      && !ArcValid(Drag(v, other, raw).water)
  {
    HandleAnglesDoesNotNormalize(p);
  }

  /** A negative start is reachable, and `changeMidControllerPos` as written
      misplaces the mid handle from it. Under a product allowing 180 degrees,
      a water allowing 270 with the arc 0 to 150 has its start dragged to the
      pointer at 200 degrees: the water's clamp puts the start at 240, and the
      re-clamp at 150 - 180 = -30. The next end drag, to 160 degrees, draws
      the mid handle through `computeMidAngle`, whose fix-up adds 360 radians
      to the negative start. */
  lemma NegativeStartMisplacesMidHandle(p: ProductState)
    requires p.maxArc == 180.0
    requires p.water.startAngle == 0.0 && p.water.endAngle == 150.0 && p.water.sweep == 150.0
    requires p.water.limits.minArc == 0.0 && p.water.limits.maxArc == 270.0
    ensures var v := OnHandleMoving(p, StartHandle, -160.0).product.water;
      var m := Drag(v, EndHandle, 160.0);
      && v.startAngle == -30.0 && v.endAngle == 150.0
      && m.water.startAngle == -30.0 && m.water.endAngle == 160.0
      && MidHandleAsWritten(m.water) == 32400.0 / MathPi + 245.0
      && !SameDirection(65.0, MidHandleAsWritten(m.water), FullTurn)
      && SameDirection(65.0, m.midHandle, FullTurn)
  {
    var w := p.water;
    assert !InSnapZone(w.sweep);
    assert PointerAngle(-160.0) == 200.0;
    assert SnapCandidate(w, StartHandle, 200.0) == 200.0;
    assert RaiseAboveZero(-50.0, FullTurn) == 310.0;
    assert SweepDegrees(200.0, 150.0) == 310.0;
    assert 240.0 - (-120.0) == Turns(1, FullTurn);
    NormalizeUnique(-120.0, 240.0, FullTurn);
    var d := Drag(w, StartHandle, -160.0).water;
    assert d.startAngle == 240.0;
    assert RaiseAboveZero(-90.0, FullTurn) == 270.0;
    assert d.sweep == 270.0;
    var v := OnHandleMoving(p, StartHandle, -160.0).product.water;
    assert v.startAngle == -30.0;
    MidHandleAfterNegativeStart(v);
  }

  /** A re-clamp does not normalize the moved endpoint: an end re-clamp
      that reaches past a full turn leaves the end there (from 300 degrees
      with a 180-degree maxArc the end becomes 480), and a start re-clamp
      that reaches below zero leaves a negative start. */
  lemma HandleAnglesDoesNotNormalize(p: ProductState)
    ensures p.water.sweep > p.maxArc && p.water.startAngle + p.maxArc >= FullTurn ==>
      !InTurn(HandleAngles(p, EndHandle).product.water.endAngle)
    ensures p.water.sweep > p.maxArc && p.water.endAngle - p.maxArc < 0.0 ==>
      !InTurn(HandleAngles(p, StartHandle).product.water.startAngle)
  {
  }

  /** minArc plays no part in `handleAngles`. */
  lemma HandleAnglesIgnoresMinArc(p: ProductState, h: Handle, minArc: real)
    ensures HandleAngles(p.(minArc := minArc), h).product == HandleAngles(p, h).product.(minArc := minArc)
    ensures HandleAngles(p.(minArc := minArc), h).startHandle == HandleAngles(p, h).startHandle
  {
  }

  /** One start- or end-handle move as the product sees it: the water's
      handler runs first, then `handleAngles`. */
  function OnHandleMoving(p: ProductState, h: Handle, raw: real): (r: Reclamped)
    ensures r.product.water.limits == p.water.limits
    ensures h == EndHandle ==> r.product.water.startAngle == p.water.startAngle
    ensures h == StartHandle ==> r.product.water.endAngle == p.water.endAngle
  {
    HandleAngles(p.(water := Water.Drag(p.water, h, raw).water), h)
  }

  /** When the water carries the product's own bounds, its clamp has already
      kept the sweep within maxArc, so `handleAngles` changes nothing. The
      arc is made consistent, and a valid product stays valid. This covers the
      first move of a product as built, whose water still reports pixels, and
      a water whose stored sweep a re-clamp has left stale. */
  lemma ReclampIsNoOpAfterWaterClamp(p: ProductState, h: Handle, raw: real)
    requires DraggableBy(p.water, h) && p.water.limits == ProductLimits(p)
    requires -180.0 <= raw <= 180.0
    ensures OnHandleMoving(p, h, raw) == Reclamped(p.(water := Water.Drag(p.water, h, raw).water), None)
    ensures var q := OnHandleMoving(p, h, raw).product;
      ArcValid(q.water) && q.water.limits == ProductLimits(q)
    ensures ProductValid(p) ==> ProductValid(OnHandleMoving(p, h, raw).product)
  {
    DragKeepsArcWithinLimits(p.water, h, raw);
  }

  /** The product as built, with its water from the constructor as written
      (reporting the radius in pixels): on its first handle move
      `handleAngles` changes nothing, and the product becomes valid. */
  lemma FirstMoveOfProductAsBuilt(catalog: map<string, CatalogEntry>, id: string, h: Handle, raw: real)
    requires id in catalog
    requires var e := catalog[id]; LimitsValid(Limits(e.minArc, e.maxArc, e.minRadius, e.maxRadius))
    requires -180.0 <= raw <= 180.0
    ensures var q := New(catalog, id).value;
      var p := q.(water := NewAsWritten(InitialStart, InitialEnd, InitialRadius, ProductLimits(q), q.fixedArc));
      OnHandleMoving(p, h, raw).startHandle == None && ProductValid(OnHandleMoving(p, h, raw).product)
  {
    var q := New(catalog, id).value;
    var p := q.(water := NewAsWritten(InitialStart, InitialEnd, InitialRadius, ProductLimits(q), q.fixedArc));
    assert RaiseAboveZero(InitialEnd - InitialStart, FullTurn) == 270.0;
    ReclampIsNoOpAfterWaterClamp(p, h, raw);
  }
}

=== FILE: water.dfy ===
/** The state of one water arc and its transitions: a drag of the start or end
    handle (`onControlCircleMoving`), a rotation by the mid handle
    (`getRotation`), a move of the product (`handleWaterMoving`), the handle
    placement override (`setPointOnCircumference`), the label flip of
    `handleInfo`, the large-arc flag of `generatePathData`, `setConstraints`
    and the getters.

    Angles are degrees. The `sweepAngle` field of the source holds radians
    from construction on; its readers convert it back with `radiansToDegrees`,
    and the model keeps that degree reading in `sweep`.
    Trigonometry is replaced by its results: a drag receives the pointer angle
    `atan2(...)` in degrees, a rotation receives the pointer angle in radians
    and the pointer's distance from the centre in pixels.
 */
module Water {
  import opened Angles

  /** Pixels per foot. */
  const WaterScale: real := 20.0

  /** Width in degrees of the snap zones near an empty and a full circle. */
  const SnapZone: real := 5.0

  /** How far short of a full circle a snapped handle stops. */
  const SnapOffset: real := 0.01

  datatype Handle = StartHandle | EndHandle

  /** Arc and radius bounds of the product, in degrees and feet. */
  datatype Limits = Limits(minArc: real, maxArc: real, minRadius: real, maxRadius: real)

  /** The fields of a `Water` object that the geometry reads or writes.
      `radiusPx` is the unscaled radius in pixels, `scale` is fabric's
      `scaleX`, `distance` is what `getRadius` returns. */
  datatype WaterState = WaterState(
    startAngle: real,
    endAngle: real,
    sweep: real,
    radiusPx: real,
    scale: real,
    distance: real,
    limits: Limits,
    fixedArc: bool)

  /** A finished handle drag: the new state, the angle the dragged handle is
      drawn at and the angle the mid handle is moved to, both in degrees. */
  datatype Moved = Moved(water: WaterState, handle: real, midHandle: real)

  /** A finished rotation: the new state and the angles the three handles
      are drawn at, in degrees. */
  datatype Rotated = Rotated(water: WaterState, startHandle: real, endHandle: real, midHandle: real)

  function Abs(x: real): (r: real)
    ensures 0.0 <= r && (r == x || r == -x)
  {
    if x < 0.0 then -x else x
  }

  predicate InTurn(a: real)
  {
    0.0 <= a < FullTurn
  }

  /** Bounds the drag clamp can honour: an arc interval inside one turn. */
  predicate LimitsValid(l: Limits)
  {
    0.0 <= l.minArc <= l.maxArc <= FullTurn && l.minArc < FullTurn
  }

  /** The radius in feet the arc is drawn with. */
  function EffectiveRadius(w: WaterState): (r: real)
    ensures w.scale == 1.0 ==> r * WaterScale == w.radiusPx
  {
    w.scale * w.radiusPx / WaterScale
  }

  /** What a drag of either handle needs: both angles in one turn and bounds
      the clamp can honour. The stored sweep plays no part, since a drag
      recomputes it. */
  predicate Draggable(w: WaterState)
  {
    InTurn(w.startAngle) && InTurn(w.endAngle) && LimitsValid(w.limits)
  }

  /** What a drag of handle `h` needs: only the endpoint it leaves fixed must
      lie in one turn, since the snap and the clamp never read the old value
      of the endpoint that moves. */
  predicate DraggableBy(w: WaterState, h: Handle)
  {
    InTurn(FixedEnd(w, h)) && LimitsValid(w.limits)
  }

  /** The arc part of what every transition keeps: a draggable arc whose
      stored sweep agrees with its angles. */
  predicate ArcValid(w: WaterState)
  {
    Draggable(w) && w.sweep == SweepDegrees(w.startAngle, w.endAngle)
  }

  /** The radius part: the reported radius is the drawn one, to the hundredth. */
  predicate RadiusReported(w: WaterState)
  {
    w.radiusPx > 0.0 && w.distance == RoundHundredths(EffectiveRadius(w))
  }

  predicate Valid(w: WaterState)
  {
    ArcValid(w) && RadiusReported(w)
  }

  // ---------------------------------------------------------------------
  // Construction

  /** The constructor as written: `distance` is set to the radius in pixels. */
  function NewAsWritten(startAngle: real, endAngle: real, radius: real, limits: Limits, fixedArc: bool): (w: WaterState)
    ensures w.distance == w.radiusPx == radius * WaterScale
  {
    WaterState(startAngle, endAngle, SweepDegrees(startAngle, endAngle),
               radius * WaterScale, 1.0, radius * WaterScale, limits, fixedArc)
  }

  /** The constructor with `distance` in feet, as `handleInfo` later sets it. */
  function New(startAngle: real, endAngle: real, radius: real, limits: Limits, fixedArc: bool): (w: WaterState)
    ensures InTurn(startAngle) && InTurn(endAngle) && LimitsValid(limits) && radius > 0.0 ==> Valid(w)
    ensures w.startAngle == startAngle && w.endAngle == endAngle
    ensures w.limits == limits && w.fixedArc == fixedArc
    ensures EffectiveRadius(w) == radius
  {
    WaterState(startAngle, endAngle, SweepDegrees(startAngle, endAngle),
               radius * WaterScale, 1.0, RoundHundredths(radius), limits, fixedArc)
  }

  /** The constructor as written reports twenty times the radius until the
      first drag, rotation or product move: 2000 for the 100 ft arc a product starts with. */
  lemma NewAsWrittenReportsPixels(limits: Limits, fixedArc: bool)
    ensures Radius(NewAsWritten(0.0, 270.0, 100.0, limits, fixedArc)) == 2000.0
    ensures Radius(New(0.0, 270.0, 100.0, limits, fixedArc)) == 100.0
    ensures !Valid(NewAsWritten(0.0, 270.0, 100.0, limits, fixedArc))
  {
    var w := NewAsWritten(0.0, 270.0, 100.0, limits, fixedArc);
    assert EffectiveRadius(w) == 100.0;
    assert RoundHundredths(100.0) == 100.0;
  }

  /** The first handle drag from the constructor as written already leaves a
      valid state: the arc lies within the bounds and the radius reads 100 ft. */
  lemma FirstDragRepairsReport(limits: Limits, fixedArc: bool, h: Handle, raw: real)
    requires LimitsValid(limits)
    requires -180.0 <= raw <= 180.0
    ensures var v := Drag(NewAsWritten(0.0, 270.0, 100.0, limits, fixedArc), h, raw).water;
      Valid(v) && limits.minArc <= v.sweep <= limits.maxArc && Radius(v) == 100.0
  {
    var w := NewAsWritten(0.0, 270.0, 100.0, limits, fixedArc);
    assert RaiseAboveZero(270.0, FullTurn) == 270.0;
    DragKeepsArcWithinLimits(w, h, raw);
    var v := Drag(w, h, raw).water;
    assert EffectiveRadius(v) == 100.0;
    assert RoundHundredths(100.0) == 100.0;
  }

  /** An end drag from a start left at -30 degrees (which only a re-clamp
      can leave) to the pointer at 160 degrees keeps the start and moves the
      end to 160. `changeMidControllerPos` as written then converts -30 to
      radians and adds 360 radians to it, which puts the mid handle at
      32400/π + 245 degrees, about 118 degrees modulo a turn, not at 65, half
      the 190-degree sweep past the start. The corrected mid handle is 425,
      the direction of 65. */
  lemma MidHandleAfterNegativeStart(w: WaterState)
    requires w.startAngle == -30.0 && w.sweep == 270.0
    requires w.limits.minArc == 0.0 && w.limits.maxArc == 270.0
    ensures var m := Drag(w, EndHandle, 160.0);
      && m.water.startAngle == -30.0 && m.water.endAngle == 160.0
      && MidHandleAsWritten(m.water) == 32400.0 / MathPi + 245.0
      && !SameDirection(65.0, MidHandleAsWritten(m.water), FullTurn)
      && m.midHandle == 425.0 && SameDirection(65.0, m.midHandle, FullTurn)
  {
    var m := Drag(w, EndHandle, 160.0);
    assert !InSnapZone(w.sweep);
    assert SnapCandidate(w, EndHandle, PointerAngle(160.0)) == 160.0;
    assert SweepDegrees(-30.0, 160.0) == 190.0;
    NormalizeInTurn(160.0);
    assert m.water.endAngle == 160.0;
    var x := MidHandleAsWritten(m.water);
    assert x == 32400.0 / MathPi + 245.0;
    NotSameDirectionBetweenTurns(65.0, x, 29);
    assert 330.0 - (-30.0) == Turns(1, FullTurn);
    NormalizeUnique(-30.0, 330.0, FullTurn);
    assert SweepDegrees(330.0, 160.0) == 190.0;
    assert 425.0 - 65.0 == Turns(1, FullTurn);
  }

  /** A point strictly between the `k`-th and the next whole turn past `a`
      does not name `a`'s direction. */
  lemma NotSameDirectionBetweenTurns(a: real, b: real, k: int)
    requires a + Turns(k, FullTurn) < b < a + Turns(k + 1, FullTurn)
    ensures !SameDirection(a, b, FullTurn)
  {
    forall j: int
      ensures b - a != Turns(j, FullTurn)
    {
      if j <= k {
        assert Turns(j, FullTurn) <= Turns(k, FullTurn);
      } else {
        assert Turns(k + 1, FullTurn) <= Turns(j, FullTurn);
      }
    }
  }

  // ---------------------------------------------------------------------
  // Getters and setConstraints

  /** `getStartAngle`. */
  function StartAngle(w: WaterState): (r: real)
    ensures ArcValid(w) ==> InTurn(r)
  {
    w.startAngle
  }

  /** `getEndAngle`. */
  function EndAngle(w: WaterState): (r: real)
    ensures ArcValid(w) ==> InTurn(r)
  {
    w.endAngle
  }

  /** `getRadius`: the radius in feet, to the hundredth. */
  function Radius(w: WaterState): (r: real)
    ensures Valid(w) ==> EffectiveRadius(w) - 0.005 < r <= EffectiveRadius(w) + 0.005
  {
    w.distance
  }

  /** `getArcAngle`: the sweep rounded to whole degrees. */
  function ArcAngle(w: WaterState): (r: int)
    ensures ArcValid(w) ==> 0 <= r <= 360
  {
    RoundHalfUp(w.sweep)
  }

  /** With whole-degree bounds, an arc within the bounds reports a whole
      arc angle within them too. */
  lemma ArcAngleWithinLimits(w: WaterState)
    requires WholeLimits(w.limits)
    requires w.limits.minArc <= w.sweep <= w.limits.maxArc
    ensures w.limits.minArc <= ArcAngle(w) as real <= w.limits.maxArc
  {
    RoundWithin(w.sweep, w.limits.minArc.Floor, w.limits.maxArc.Floor);
  }

  /** Rounding to whole numbers stays between whole bounds. */
  lemma RoundWithin(x: real, lo: int, hi: int)
    requires lo as real <= x <= hi as real
    ensures lo <= RoundHalfUp(x) <= hi
  {
  }

  /** `setConstraints`: new bounds, and nothing else changes; the arc is not
      re-clamped until the next drag. */
  function SetConstraints(w: WaterState, limits: Limits): (r: WaterState)
    ensures r.limits == limits
    ensures r.startAngle == w.startAngle && r.endAngle == w.endAngle && r.sweep == w.sweep
    ensures r.fixedArc == w.fixedArc && EffectiveRadius(r) == EffectiveRadius(w) && r.distance == w.distance
  {
    w.(limits := limits)
  }

  /** New bounds keep a valid state valid, and the next drag honours them
      whatever sweep the state has stored. */
  lemma DragAfterSetConstraints(w: WaterState, limits: Limits, h: Handle, raw: real)
    requires InTurn(FixedEnd(w, h)) && LimitsValid(limits)
    requires -180.0 <= raw <= 180.0
    ensures ArcValid(w) ==> ArcValid(SetConstraints(w, limits))
    ensures Valid(w) ==> Valid(SetConstraints(w, limits))
    ensures limits.minArc <= Drag(SetConstraints(w, limits), h, raw).water.sweep <= limits.maxArc
  {
    DragKeepsArcWithinLimits(SetConstraints(w, limits), h, raw);
  }

  // ---------------------------------------------------------------------
  // Handle drag

  /** The pointer angle: `atan2` in degrees, with negative values moved up
      by one turn. */
  function PointerAngle(raw: real): (r: real)
    ensures -180.0 <= raw <= 180.0 ==> InTurn(r)
    ensures SameDirection(raw, r, FullTurn)
  {
    if raw >= 0.0 then
      SameDirectionRefl(raw, FullTurn);
      raw
    else
      assert (FullTurn + raw) - raw == Turns(1, FullTurn);
      FullTurn + raw
  }

  /** For a pointer in the range of `atan2` the adjustment is `normalizeAngle`. */
  lemma PointerAngleIsNormalize(raw: real)
    requires -180.0 <= raw <= 180.0
    ensures PointerAngle(raw) == Normalize(raw, FullTurn)
  {
    NormalizeUnique(raw, PointerAngle(raw), FullTurn);
  }

  /** The arc is close to empty or to a full circle. */
  predicate InSnapZone(sweep: real)
  {
    (0.0 <= sweep <= SnapZone) || (FullTurn - SnapZone <= sweep <= FullTurn)
  }

  /** The pointer is between 5 and 355 degrees from an endpoint, by plain
      difference. */
  predicate FarFrom(pointer: real, endpoint: real)
  {
    SnapZone <= Abs(pointer - endpoint) <= FullTurn - SnapZone
  }

  /** The endpoint that stays put while the other handle is dragged. */
  function FixedEnd(w: WaterState, h: Handle): (r: real)
  {
    match h
    case EndHandle => w.startAngle
    case StartHandle => w.endAngle
  }

  /** Where the dragged handle should go before clamping: the pointer, or,
      near an empty or full arc with the pointer close to the fixed
      endpoint, just short of a full circle from it. */
  function SnapCandidate(w: WaterState, h: Handle, pointer: real): (r: real)
    ensures !InSnapZone(w.sweep) || FarFrom(pointer, FixedEnd(w, h)) ==> r == pointer
    ensures InSnapZone(w.sweep) && !FarFrom(pointer, FixedEnd(w, h)) ==>
      (h == EndHandle ==> SweepDegrees(w.startAngle, r) == FullTurn - SnapOffset) &&
      (h == StartHandle ==> SweepDegrees(r, w.endAngle) == FullTurn - SnapOffset)
  {
    if !InSnapZone(w.sweep) || FarFrom(pointer, FixedEnd(w, h)) then pointer
    else
      match h
      case EndHandle =>
        var r := w.startAngle - SnapOffset;
        SnapSpan(w.startAngle, r);
        r
      case StartHandle =>
        var r := w.endAngle + SnapOffset;
        SnapSpan(r, w.endAngle);
        r
  }

  /** An arc whose end lies 0.01 degrees behind its start spans 359.99 degrees. */
  lemma SnapSpan(s: real, e: real)
    requires e == s - SnapOffset
    ensures SweepDegrees(s, e) == FullTurn - SnapOffset
  {
    assert RaiseAboveZero(e - s, FullTurn) == FullTurn - SnapOffset;
  }

  /** The moved endpoint for an end-handle drag: the candidate normalized, or
      the fixed start plus the bound it would cross. */
  function ClampEnd(start: real, candidate: real, l: Limits): (r: real)
    ensures InTurn(r)
    ensures SweepDegrees(start, candidate) > l.maxArc ==> r == Normalize(start + l.maxArc, FullTurn)
    ensures l.minArc <= SweepDegrees(start, candidate) <= l.maxArc ==> r == Normalize(candidate, FullTurn)
  {
    var sweep := SweepDegrees(start, candidate);
    if sweep > l.maxArc then Normalize(start + l.maxArc, FullTurn)
    else if sweep < l.minArc then Normalize(start + l.minArc, FullTurn)
    else Normalize(candidate, FullTurn)
  }

  /** The moved endpoint for a start-handle drag, measured back from the
      fixed end. */
  function ClampStart(candidate: real, end: real, l: Limits): (r: real)
    ensures InTurn(r)
    ensures SweepDegrees(candidate, end) > l.maxArc ==> r == Normalize(end - l.maxArc, FullTurn)
    ensures l.minArc <= SweepDegrees(candidate, end) <= l.maxArc ==> r == Normalize(candidate, FullTurn)
  {
    var sweep := SweepDegrees(candidate, end);
    if sweep > l.maxArc then Normalize(end - l.maxArc, FullTurn)
    else if sweep < l.minArc then Normalize(end - l.minArc, FullTurn)
    else Normalize(candidate, FullTurn)
  }

  /** `changeMidControllerPos` with the corrected `computeMidAngle`: the mid
      angle of the arc, computed in radians and reported in degrees. It is the
      degree computation, and for endpoints within a turn either side of zero
      it lies half the sweep past the start, both taken in normal form. */
  function MidHandle(w: WaterState): (r: real)
    ensures r == ComputeMidAngle(w.startAngle, w.endAngle, FullTurn)
    ensures -FullTurn <= w.startAngle < FullTurn && -FullTurn <= w.endAngle < FullTurn ==>
      var (s, e) := (Normalize(w.startAngle, FullTurn), Normalize(w.endAngle, FullTurn));
      r == s + SweepDegrees(s, e) / 2.0
  {
    ComputeMidAngleInDegrees(w.startAngle, w.endAngle);
    assert -FullTurn <= w.startAngle < FullTurn && -FullTurn <= w.endAngle < FullTurn ==>
      var (s, e) := (Normalize(w.startAngle, FullTurn), Normalize(w.endAngle, FullTurn));
      ComputeMidAngle(w.startAngle, w.endAngle, FullTurn) == s + SweepDegrees(s, e) / 2.0
    by {
      if -FullTurn <= w.startAngle < FullTurn && -FullTurn <= w.endAngle < FullTurn {
        ComputeMidAngleSignedHalfSweep(w.startAngle, w.endAngle, FullTurn);
      }
    }
    ToDegrees(ComputeMidAngle(ToRadians(w.startAngle), ToRadians(w.endAngle), 2.0 * MathPi))
  }

  /** `changeMidControllerPos` as written, through `ComputeMidAngleAsWritten`.
      It agrees with `MidHandle` while both angles are non-negative. */
  function MidHandleAsWritten(w: WaterState): (r: real)
    ensures 0.0 <= w.startAngle && 0.0 <= w.endAngle ==> r == MidHandle(w)
  {
    ToDegrees(ComputeMidAngleAsWritten(ToRadians(w.startAngle), ToRadians(w.endAngle), 2.0 * MathPi))
  }

  /** `setPointOnCircumference`: a handle is drawn at `angle` unless the
      rounded sweep has reached a bound, in which case it is drawn where that
      bound puts it relative to the other endpoint. */
  function HandlePlacement(w: WaterState, h: Handle, angle: real): (r: real)
    ensures r == angle || InTurn(r)
    ensures w.limits.minArc < RoundHalfUp(w.sweep) as real < w.limits.maxArc ==> r == angle
    ensures RoundHalfUp(w.sweep) as real >= w.limits.maxArc ==>
      r == (if h == EndHandle then Normalize(w.startAngle + w.limits.maxArc, FullTurn)
            else Normalize(w.endAngle - w.limits.maxArc, FullTurn))
    ensures w.limits.maxArc > RoundHalfUp(w.sweep) as real && RoundHalfUp(w.sweep) as real <= w.limits.minArc ==>
      r == (if h == EndHandle then Normalize(w.startAngle + w.limits.minArc, FullTurn)
            else Normalize(w.endAngle - w.limits.minArc, FullTurn))
  {
    var rounded := RoundHalfUp(w.sweep) as real;
    if rounded >= w.limits.maxArc then
      match h
      case EndHandle => Normalize(w.startAngle + w.limits.maxArc, FullTurn)
      case StartHandle => Normalize(w.endAngle - w.limits.maxArc, FullTurn)
    else if rounded <= w.limits.minArc then
      match h
      case EndHandle => Normalize(w.startAngle + w.limits.minArc, FullTurn)
      case StartHandle => Normalize(w.endAngle - w.limits.minArc, FullTurn)
    else angle
  }

  /** `onControlCircleMoving`: only the dragged endpoint moves, the sweep is
      recomputed by `getSweepAngle`, and the radius report is refreshed. */
  function Drag(w: WaterState, h: Handle, raw: real): (r: Moved)
    ensures h == EndHandle ==> r.water.startAngle == w.startAngle
    ensures h == StartHandle ==> r.water.endAngle == w.endAngle
    ensures h == EndHandle ==> InTurn(r.water.endAngle)
    ensures h == StartHandle ==> InTurn(r.water.startAngle)
    ensures r.water.sweep == ToDegrees(GetSweepAngle(r.water.startAngle, r.water.endAngle))
    ensures r.water.limits == w.limits && r.water.fixedArc == w.fixedArc
    ensures r.water.radiusPx == w.radiusPx && r.water.scale == w.scale
    ensures r.water.distance == RoundHundredths(EffectiveRadius(r.water))
  {
    var candidate := SnapCandidate(w, h, PointerAngle(raw));
    var moved := match h
      case EndHandle => w.(endAngle := ClampEnd(w.startAngle, candidate, w.limits))
      case StartHandle => w.(startAngle := ClampStart(candidate, w.endAngle, w.limits));
    var w' := moved.(sweep := SweepDegrees(moved.startAngle, moved.endAngle),
                     distance := RoundHundredths(EffectiveRadius(moved)));
    GetSweepAngleInDegrees(w'.startAngle, w'.endAngle);
    assert EffectiveRadius(w') == EffectiveRadius(moved);
    Moved(w', HandlePlacement(w', h, candidate), MidHandle(w'))
  }

  /** The candidate from a pointer in the range of `atan2` never lies a
      whole turn ahead of the fixed endpoint. */
  lemma CandidateShortOfFullTurn(w: WaterState, h: Handle, raw: real)
    requires InTurn(FixedEnd(w, h))
    requires -180.0 <= raw <= 180.0
    ensures h == EndHandle ==> SweepDegrees(w.startAngle, SnapCandidate(w, h, PointerAngle(raw))) < FullTurn
    ensures h == StartHandle ==> SweepDegrees(SnapCandidate(w, h, PointerAngle(raw)), w.endAngle) < FullTurn
  {
    var c := SnapCandidate(w, h, PointerAngle(raw));
    if h == EndHandle {
      ShortOfFullTurn(w.startAngle, c);
    } else {
      ShortOfFullTurn(c, w.endAngle);
    }
  }

  /** An arc less than a whole turn long by plain difference has a sweep
      below a full turn. */
  lemma ShortOfFullTurn(s: real, e: real)
    requires e - s < FullTurn
    ensures SweepDegrees(s, e) < FullTurn
  {
    SweepDegreesCases(s, e);
    if s < e && SameDirection(s, e, FullTurn) {
      var k :| e - s == Turns(k, FullTurn);
      TurnsAwayFromZero(k, FullTurn);
    }
  }

  /** A normalized angle is its own normal form. */
  lemma NormalizeInTurn(a: real)
    requires InTurn(a)
    ensures Normalize(a, FullTurn) == a
  {
    SameDirectionRefl(a, FullTurn);
    NormalizeUnique(a, a, FullTurn);
  }

  /** The sweep from `s` to the normal form of `s + d` is `d`, for `d` within one turn. */
  lemma SweepToOffset(s: real, d: real)
    requires InTurn(s) && InTurn(d)
    ensures SweepDegrees(s, Normalize(s + d, FullTurn)) == d
  {
    SweepBetweenDirections(s, s + d);
    NormalizeInTurn(s);
    NormalizeInTurn(d);
  }

  /** The sweep from the normal form of `e - d` to `e` is `d`, for `d` within one turn. */
  lemma SweepFromOffset(e: real, d: real)
    requires InTurn(e) && InTurn(d)
    ensures SweepDegrees(Normalize(e - d, FullTurn), e) == d
  {
    SweepBetweenDirections(e - d, e);
    NormalizeInTurn(e);
    assert e - (e - d) == d;
    NormalizeInTurn(d);
  }

  /** An end-handle clamp leaves the sweep at the bound crossed, or as the
      candidate made it when no bound was crossed. */
  lemma ClampEndSweep(s: real, c: real, l: Limits)
    requires InTurn(s) && LimitsValid(l)
    requires SweepDegrees(s, c) < FullTurn
    ensures l.minArc <= SweepDegrees(s, ClampEnd(s, c, l)) <= l.maxArc
    ensures SweepDegrees(s, c) > l.maxArc ==> SweepDegrees(s, ClampEnd(s, c, l)) == l.maxArc
    ensures SweepDegrees(s, c) < l.minArc ==> SweepDegrees(s, ClampEnd(s, c, l)) == l.minArc
    ensures l.minArc <= SweepDegrees(s, c) <= l.maxArc ==> SweepDegrees(s, ClampEnd(s, c, l)) == SweepDegrees(s, c)
  {
    var sweep := SweepDegrees(s, c);
    if sweep > l.maxArc {
      SweepToOffset(s, l.maxArc);
    } else if sweep < l.minArc {
      SweepToOffset(s, l.minArc);
    } else {
      SweepBetweenDirections(s, c);
      NormalizeInTurn(s);
      WrapClosedCases(c - s, FullTurn);
    }
  }

  /** A start-handle clamp leaves the sweep at the bound crossed, or as the
      candidate made it when no bound was crossed. */
  lemma ClampStartSweep(c: real, e: real, l: Limits)
    requires InTurn(e) && LimitsValid(l)
    requires SweepDegrees(c, e) < FullTurn
    ensures l.minArc <= SweepDegrees(ClampStart(c, e, l), e) <= l.maxArc
    ensures SweepDegrees(c, e) > l.maxArc ==> SweepDegrees(ClampStart(c, e, l), e) == l.maxArc
    ensures SweepDegrees(c, e) < l.minArc ==> SweepDegrees(ClampStart(c, e, l), e) == l.minArc
    ensures l.minArc <= SweepDegrees(c, e) <= l.maxArc ==> SweepDegrees(ClampStart(c, e, l), e) == SweepDegrees(c, e)
  {
    var sweep := SweepDegrees(c, e);
    if sweep > l.maxArc {
      SweepFromOffset(e, l.maxArc);
    } else if sweep < l.minArc {
      SweepFromOffset(e, l.minArc);
    } else {
      SweepBetweenDirections(c, e);
      NormalizeInTurn(e);
      WrapClosedCases(e - c, FullTurn);
    }
  }

  /** A drag keeps the arc consistent and within the bounds, and it leaves
      a valid state whenever the radius is positive: the radius report is
      refreshed whatever it held before, and so is a stale stored sweep. */
  lemma DragKeepsArcWithinLimits(w: WaterState, h: Handle, raw: real)
    requires DraggableBy(w, h)
    requires -180.0 <= raw <= 180.0
    ensures ArcValid(Drag(w, h, raw).water)
    ensures w.limits.minArc <= Drag(w, h, raw).water.sweep <= w.limits.maxArc
    ensures w.radiusPx > 0.0 ==> Valid(Drag(w, h, raw).water)
  {
    var c := SnapCandidate(w, h, PointerAngle(raw));
    CandidateShortOfFullTurn(w, h, raw);
    if h == EndHandle {
      ClampEndSweep(w.startAngle, c, w.limits);
    } else {
      ClampStartSweep(c, w.endAngle, w.limits);
    }
  }

  /** Why the bounds must keep `minArc` below a full turn: with both bounds
      at 360 degrees (a full-circle arc) every drag finds the candidate short
      of the minimum, moves the dragged endpoint a whole turn from the fixed
      one, which is onto it, and leaves an empty arc. */
  lemma FullCircleBoundsCollapse(w: WaterState, h: Handle, raw: real)
    requires InTurn(FixedEnd(w, h))
    requires w.limits.minArc == FullTurn && w.limits.maxArc == FullTurn
    requires -180.0 <= raw <= 180.0
    ensures Drag(w, h, raw).water.startAngle == Drag(w, h, raw).water.endAngle
    ensures Drag(w, h, raw).water.sweep == 0.0
  {
    CandidateShortOfFullTurn(w, h, raw);
    if h == EndHandle {
      assert w.startAngle - (w.startAngle + FullTurn) == Turns(-1, FullTurn);
      NormalizeUnique(w.startAngle + FullTurn, w.startAngle, FullTurn);
    } else {
      assert w.endAngle - (w.endAngle - FullTurn) == Turns(1, FullTurn);
      NormalizeUnique(w.endAngle - FullTurn, w.endAngle, FullTurn);
    }
  }

  /** The mid handle after a drag sits half the sweep past the start. */
  lemma DragMidHandleHalfway(w: WaterState, h: Handle, raw: real)
    requires DraggableBy(w, h)
    requires -180.0 <= raw <= 180.0
    ensures var m := Drag(w, h, raw);
      m.midHandle == m.water.startAngle + m.water.sweep / 2.0
  {
    var m := Drag(w, h, raw);
    DragKeepsArcWithinLimits(w, h, raw);
    ComputeMidAngleHalfSweep(m.water.startAngle, m.water.endAngle, FullTurn);
  }

  /** If `d` is the signed offset from `a` to `b`, within half a turn, then
      the angular distance between them is its size. */
  lemma AngularDistanceOfOffset(a: real, b: real, d: real)
    requires -180.0 <= d <= 180.0
    requires SameDirection(d, b - a, FullTurn)
    ensures AngularDistance(a, b) == Abs(d)
  {
    if d >= 0.0 {
      SameDirectionSym(d, b - a, FullTurn);
      NormalizeUnique(b - a, d, FullTurn);
    } else {
      var k :| (b - a) - d == Turns(k, FullTurn);
      assert (FullTurn + d) - (b - a) == Turns(1 - k, FullTurn);
      NormalizeUnique(b - a, FullTurn + d, FullTurn);
    }
  }

  /** A whole-degree bound rounds to itself. */
  lemma RoundWhole(n: int)
    ensures RoundHalfUp(n as real) == n
  {
  }

  /** A handle drawn at `Normalize(s + bound)` is within half a degree of the
      end of an arc from `s` whose sweep is within half a degree of `bound`. */
  lemma EndBoundNearArcEnd(s: real, e: real, bound: real)
    requires InTurn(s) && InTurn(e)
    requires -0.5 <= bound - SweepDegrees(s, e) <= 0.5
    ensures AngularDistance(Normalize(s + bound, FullTurn), e) <= 0.5
  {
    var n := Normalize(s + bound, FullTurn);
    var sweep := SweepDegrees(s, e);
    var j :| n - (s + bound) == Turns(j, FullTurn);
    var k :| sweep - (e - s) == Turns(k, FullTurn);
    assert SameDirection(sweep - bound, e - n, FullTurn) by {
      assert (e - n) - (sweep - bound) == Turns(-j - k, FullTurn);
    }
    AngularDistanceOfOffset(n, e, sweep - bound);
  }

  /** A handle drawn at `Normalize(e - bound)` is within half a degree of the
      start of an arc to `e` whose sweep is within half a degree of `bound`. */
  lemma StartBoundNearArcStart(s: real, e: real, bound: real)
    requires InTurn(s) && InTurn(e)
    requires -0.5 <= bound - SweepDegrees(s, e) <= 0.5
    ensures AngularDistance(Normalize(e - bound, FullTurn), s) <= 0.5
  {
    var n := Normalize(e - bound, FullTurn);
    var sweep := SweepDegrees(s, e);
    var j :| n - (e - bound) == Turns(j, FullTurn);
    var k :| sweep - (e - s) == Turns(k, FullTurn);
    assert SameDirection(bound - sweep, s - n, FullTurn) by {
      assert (s - n) - (bound - sweep) == Turns(k - j, FullTurn);
    }
    AngularDistanceOfOffset(n, s, bound - sweep);
  }

  /** An angle and its normal form are no distance apart. */
  lemma NormalFormAtZeroDistance(c: real)
    ensures AngularDistance(c, Normalize(c, FullTurn)) == 0.0
  {
    var j :| Normalize(c, FullTurn) - c == Turns(j, FullTurn);
    assert SameDirection(0.0, Normalize(c, FullTurn) - c, FullTurn) by {
      assert (Normalize(c, FullTurn) - c) - 0.0 == Turns(j, FullTurn);
    }
    AngularDistanceOfOffset(c, Normalize(c, FullTurn), 0.0);
  }

  /** Whole-degree bounds. */
  predicate WholeLimits(l: Limits)
  {
    l.minArc == l.minArc.Floor as real && l.maxArc == l.maxArc.Floor as real
  }

  /** The end handle is drawn within half a degree of the arc's end when the
      sweep is within the whole-degree bounds and the end is the normal form
      of the handle's angle unless the sweep sits on a bound. */
  lemma EndPlacementNearArcEnd(v: WaterState, c: real)
    requires ArcValid(v) && WholeLimits(v.limits)
    requires v.limits.minArc <= v.sweep <= v.limits.maxArc
    requires v.sweep != v.limits.minArc && v.sweep != v.limits.maxArc ==> v.endAngle == Normalize(c, FullTurn)
    ensures AngularDistance(HandlePlacement(v, EndHandle, c), v.endAngle) <= 0.5
  {
    var l := v.limits;
    var rounded := RoundHalfUp(v.sweep) as real;
    if rounded >= l.maxArc {
      EndBoundNearArcEnd(v.startAngle, v.endAngle, l.maxArc);
    } else if rounded <= l.minArc {
      EndBoundNearArcEnd(v.startAngle, v.endAngle, l.minArc);
    } else {
      RoundWhole(l.maxArc.Floor);
      RoundWhole(l.minArc.Floor);
      NormalFormAtZeroDistance(c);
    }
  }

  /** The start-handle counterpart of `EndPlacementNearArcEnd`. */
  lemma StartPlacementNearArcStart(v: WaterState, c: real)
    requires ArcValid(v) && WholeLimits(v.limits)
    requires v.limits.minArc <= v.sweep <= v.limits.maxArc
    requires v.sweep != v.limits.minArc && v.sweep != v.limits.maxArc ==> v.startAngle == Normalize(c, FullTurn)
    ensures AngularDistance(HandlePlacement(v, StartHandle, c), v.startAngle) <= 0.5
  {
    var l := v.limits;
    var rounded := RoundHalfUp(v.sweep) as real;
    if rounded >= l.maxArc {
      StartBoundNearArcStart(v.startAngle, v.endAngle, l.maxArc);
    } else if rounded <= l.minArc {
      StartBoundNearArcStart(v.startAngle, v.endAngle, l.minArc);
    } else {
      RoundWhole(l.maxArc.Floor);
      RoundWhole(l.minArc.Floor);
      NormalFormAtZeroDistance(c);
    }
  }

  /** With whole-degree bounds, the dragged handle is drawn within half a
      degree of the endpoint the drag moved. */
  lemma DragDrawsHandleNearArcEnd(w: WaterState, h: Handle, raw: real)
    requires DraggableBy(w, h) && WholeLimits(w.limits)
    requires -180.0 <= raw <= 180.0
    ensures var m := Drag(w, h, raw);
      AngularDistance(m.handle, if h == EndHandle then m.water.endAngle else m.water.startAngle) <= 0.5
  {
    var v := Drag(w, h, raw).water;
    var c := SnapCandidate(w, h, PointerAngle(raw));
    DragKeepsArcWithinLimits(w, h, raw);
    CandidateShortOfFullTurn(w, h, raw);
    if h == EndHandle {
      ClampEndSweep(w.startAngle, c, w.limits);
      EndPlacementNearArcEnd(v, c);
    } else {
      ClampStartSweep(c, w.endAngle, w.limits);
      StartPlacementNearArcStart(v, c);
    }
  }

  // ---------------------------------------------------------------------
  // Rotation

  /** `x` clamped into [lo, hi], lower bound checked first as the source does. */
  function Clamp(x: real, lo: real, hi: real): (r: real)
    ensures lo <= hi ==> lo <= r <= hi
    ensures lo <= x <= hi ==> r == x
  {
    if x < lo then lo else if x > hi then hi else x
  }

  /** The `scaleX` that `getRotation` leaves: the pointer distance over the
      radius, unless the distance in feet falls outside
      [0.75 * minRadius, maxRadius], when the bound crossed is scaled to
      instead. The drawn radius is then the clamped distance. */
  function RotationScale(radiusPx: real, distancePx: real, l: Limits): (scale: real)
    requires radiusPx > 0.0
    ensures scale * radiusPx / WaterScale == Clamp(distancePx / WaterScale, 0.75 * l.minRadius, l.maxRadius)
  {
    var feet := distancePx / WaterScale;
    var radiusFeet := radiusPx / WaterScale;
    if feet < 0.75 * l.minRadius then
      DivideThenMultiply(0.75 * l.minRadius, radiusFeet);
      0.75 * l.minRadius / radiusFeet
    else if feet > l.maxRadius then
      DivideThenMultiply(l.maxRadius, radiusFeet);
      l.maxRadius / radiusFeet
    else
      DivideThenMultiply(distancePx, radiusPx);
      distancePx / radiusPx
  }

  /** Whether `getRotation` clamped the radius and so recomputed the mid handle. */
  predicate RadiusClamped(distancePx: real, l: Limits)
  {
    distancePx / WaterScale < 0.75 * l.minRadius || distancePx / WaterScale > l.maxRadius
  }

  /** `getRotation`: the arc keeps its sweep and is re-centred on the mid
      handle's pointer angle `midRad`; the drawn radius follows the pointer
      distance `distancePx`, clamped into [0.75 * minRadius, maxRadius] feet.
      The stored sweep is left as it was. */
  function Rotate(w: WaterState, midRad: real, distancePx: real): (r: Rotated)
    requires w.radiusPx > 0.0
    ensures InTurn(r.water.startAngle) && InTurn(r.water.endAngle)
    ensures r.water.sweep == w.sweep && r.water.limits == w.limits && r.water.radiusPx == w.radiusPx
    ensures EffectiveRadius(r.water) == Clamp(distancePx / WaterScale, 0.75 * w.limits.minRadius, w.limits.maxRadius)
    ensures ArcValid(w) ==> Valid(r.water)
    ensures ArcValid(w) ==> SameDirection(ToDegrees(midRad), r.midHandle, FullTurn)
  {
    var half := GetSweepAngle(w.startAngle, w.endAngle) / 2.0;
    var recentred := Recentre(w, midRad);
    var w' := Rescale(recentred, distancePx);
    assert w'.startAngle == recentred.startAngle && w'.endAngle == recentred.endAngle;
    var mid := if RadiusClamped(distancePx, w.limits) then MidHandle(w') else ToDegrees(midRad);
    assert ArcValid(w) ==> SameDirection(ToDegrees(midRad), mid, FullTurn) by {
      if ArcValid(w) && !RadiusClamped(distancePx, w.limits) {
        SameDirectionRefl(ToDegrees(midRad), FullTurn);
      }
    }
    Rotated(w', HandlePlacement(w', StartHandle, ToDegrees(midRad - half)),
            HandlePlacement(w', EndHandle, ToDegrees(midRad + half)), mid)
  }

  /** The first rotation from the constructor as written already leaves a
      valid state: the arc keeps its 270 degrees, the mid handle points where
      the pointer does, and the radius reads the clamped pointer distance in
      feet. */
  lemma FirstRotationRepairsReport(limits: Limits, fixedArc: bool, midRad: real, distancePx: real)
    requires LimitsValid(limits)
    ensures var r := Rotate(NewAsWritten(0.0, 270.0, 100.0, limits, fixedArc), midRad, distancePx);
      && Valid(r.water) && r.water.sweep == 270.0
      && SameDirection(ToDegrees(midRad), r.midHandle, FullTurn)
      && Radius(r.water) == RoundHundredths(Clamp(distancePx / WaterScale, 0.75 * limits.minRadius, limits.maxRadius))
  {
    var w := NewAsWritten(0.0, 270.0, 100.0, limits, fixedArc);
    assert RaiseAboveZero(270.0, FullTurn) == 270.0;
    assert ArcValid(w);
  }

  /** The angle half of `getRotation`: both endpoints move to half the sweep
      either side of `midRad`, normalized. The sweep between them stays what
      it was and their mid angle is the requested direction. */
  function Recentre(w: WaterState, midRad: real): (v: WaterState)
    ensures v == w.(startAngle := v.startAngle, endAngle := v.endAngle)
    ensures InTurn(v.startAngle) && InTurn(v.endAngle)
    ensures ArcValid(w) ==> ArcValid(v)
    ensures ArcValid(w) ==>
      SameDirection(ToDegrees(midRad), ComputeMidAngle(v.startAngle, v.endAngle, FullTurn), FullTurn)
  {
    var half := GetSweepAngle(w.startAngle, w.endAngle) / 2.0;
    var v := w.(startAngle := Normalize(ToDegrees(midRad - half), FullTurn),
                endAngle := Normalize(ToDegrees(midRad + half), FullTurn));
    RecentreInDegrees(w.startAngle, w.endAngle, midRad);
    v
  }

  /** The radius half of `getRotation`: the new `scaleX` and the radius
      report `handleInfo` derives from it; the arc itself is untouched. */
  function Rescale(w: WaterState, distancePx: real): (v: WaterState)
    requires w.radiusPx > 0.0
    ensures v == w.(scale := v.scale, distance := v.distance)
    ensures EffectiveRadius(v) == Clamp(distancePx / WaterScale, 0.75 * w.limits.minRadius, w.limits.maxRadius)
    ensures RadiusReported(v)
  {
    var scale := RotationScale(w.radiusPx, distancePx, w.limits);
    var scaled := w.(scale := scale);
    var v := scaled.(distance := RoundHundredths(EffectiveRadius(scaled)));
    assert EffectiveRadius(scaled) == scale * w.radiusPx / WaterScale;
    assert EffectiveRadius(v) == EffectiveRadius(scaled);
    v
  }

  /** `handleWaterMoving`, run on every move of the product: the water is
      re-centred on the product and its drawings follow, so of the state only
      the radius report changes, which `handleInfo` rewrites from the drawn
      radius. */
  function ProductMoved(w: WaterState): (v: WaterState)
    ensures v == w.(distance := v.distance)
    ensures w.radiusPx > 0.0 ==> RadiusReported(v)
    ensures ArcValid(w) && w.radiusPx > 0.0 ==> Valid(v)
    ensures Valid(w) ==> v == w
  {
    var v := w.(distance := RoundHundredths(EffectiveRadius(w)));
    assert EffectiveRadius(v) == EffectiveRadius(w);
    v
  }

  /** The first product move from the constructor as written already leaves
      a valid state reporting 100 ft. */
  lemma FirstProductMoveRepairsReport(limits: Limits, fixedArc: bool)
    requires LimitsValid(limits)
    ensures var v := ProductMoved(NewAsWritten(0.0, 270.0, 100.0, limits, fixedArc));
      Valid(v) && Radius(v) == 100.0
  {
    var w := NewAsWritten(0.0, 270.0, 100.0, limits, fixedArc);
    assert RaiseAboveZero(270.0, FullTurn) == 270.0;
    assert EffectiveRadius(ProductMoved(w)) == 100.0;
    assert RoundHundredths(100.0) == 100.0;
  }

  lemma DivideThenMultiply(a: real, b: real)
    requires b != 0.0
    ensures a / b * b == a
  {
  }

  /** `Recentre`'s angles, read in degrees: an arc from `s` to `e` within one
      turn, moved to be centred on `midRad`, keeps its sweep and is centred
      on `midRad`. */
  lemma RecentreInDegrees(s: real, e: real, midRad: real)
    ensures var half := GetSweepAngle(s, e) / 2.0;
      var s', e' := Normalize(ToDegrees(midRad - half), FullTurn), Normalize(ToDegrees(midRad + half), FullTurn);
      InTurn(s) && InTurn(e) ==>
        SweepDegrees(s', e') == SweepDegrees(s, e) &&
        SameDirection(ToDegrees(midRad), ComputeMidAngle(s', e', FullTurn), FullTurn)
  {
    if InTurn(s) && InTurn(e) {
      SweepOfNormalized(s, e);
      HalfSweepInDegrees(midRad, s, e);
      RecentreKeepsSweep(ToDegrees(midRad), SweepDegrees(s, e));
    }
  }

  /** The rotated endpoints of `getRotation`, read in degrees, lie half the
      sweep either side of the mid angle. */
  lemma HalfSweepInDegrees(midRad: real, s: real, e: real)
    ensures ToDegrees(midRad - GetSweepAngle(s, e) / 2.0) == ToDegrees(midRad) - SweepDegrees(s, e) / 2.0
    ensures ToDegrees(midRad + GetSweepAngle(s, e) / 2.0) == ToDegrees(midRad) + SweepDegrees(s, e) / 2.0
  {
    GetSweepAngleInDegrees(s, e);
  }

  /** Re-centring an arc of sweep `d` on the direction `m` gives an arc of
      the same sweep whose mid angle is `m`, up to whole turns. */
  lemma RecentreKeepsSweep(m: real, d: real)
    requires InTurn(d)
    ensures var s, e := Normalize(m - d / 2.0, FullTurn), Normalize(m + d / 2.0, FullTurn);
      SweepDegrees(s, e) == d && SameDirection(m, ComputeMidAngle(s, e, FullTurn), FullTurn)
  {
    var s, e := Normalize(m - d / 2.0, FullTurn), Normalize(m + d / 2.0, FullTurn);
    var j :| s - (m - d / 2.0) == Turns(j, FullTurn);
    var k :| e - (m + d / 2.0) == Turns(k, FullTurn);
    SweepOfNormalized(s, e);
    assert SameDirection(e - s, d, FullTurn) by {
      assert d - (e - s) == Turns(j - k, FullTurn);
    }
    NormalizeUnique(e - s, d, FullTurn);
    ComputeMidAngleHalfSweep(s, e, FullTurn);
    assert ComputeMidAngle(s, e, FullTurn) - m == Turns(j, FullTurn);
  }

  // ---------------------------------------------------------------------
  // Label and path

  /** The label angle of `handleInfo`: the direction of the info line,
      normalized, turned half a turn when it would read upside down. */
  function LabelAngle(raw: real): (r: real)
    ensures 0.0 <= r < FullTurn + 180.0
  {
    var t := Normalize(raw, FullTurn);
    if 90.0 < t < 270.0 then t + 180.0 else t
  }

  /** The label is never upside down, and it lies along the info line, one
      way or the other. */
  lemma LabelNeverUpsideDown(raw: real)
    ensures var n := Normalize(LabelAngle(raw), FullTurn); !(90.0 < n < 270.0)
    ensures var d := LabelAngle(raw) - Normalize(raw, FullTurn); d == 0.0 || d == 180.0
  {
    var t := Normalize(raw, FullTurn);
    var r := LabelAngle(raw);
    if 90.0 < t < 270.0 {
      if r < FullTurn {
        NormalizeInTurn(r);
      } else {
        assert (r - FullTurn) - r == Turns(-1, FullTurn);
        NormalizeUnique(r, r - FullTurn, FullTurn);
      }
    } else {
      NormalizeIdempotent(raw, FullTurn);
    }
  }

  /** The large-arc flag of `generatePathData`. */
  function LargeArcFlag(startAngle: real, endAngle: real): (r: int)
    ensures r == 0 || r == 1
  {
    var s := if startAngle >= 0.0 then startAngle else 360.0 + startAngle;
    var e := if endAngle >= 0.0 then endAngle else 360.0 + endAngle;
    var sweep := WrapClosed(ToRadians(e) - ToRadians(s), 2.0 * MathPi);
    if sweep <= MathPi then 0 else 1
  }

  /** The flag asks for the long way round exactly when the arc spans more
      than half a turn, as section 8.3.8 of SVG 1.1 defines the flag. */
  lemma LargeArcFlagMeaning(s: real, e: real)
    requires 0.0 <= s && 0.0 <= e
    ensures LargeArcFlag(s, e) == 1 <==> SweepDegrees(s, e) > 180.0
  {
    GetSweepAngleInDegrees(s, e);
  }
}
